=== FILE: README.md ===
# Invoice field extraction, modelled in Dafny

This project models the pure core of `scripts/job.py`. That script takes an
uploaded invoice file and works out its base name and MIME type. It then
reads the form fields that the document OCR service detected and ranks them
in reading order. It keeps the fields whose label holds one of the keywords
`number`, `id`, `date`, `#` or `invoice`, and from those rows extracts an
identifier and a date. Finally it records the row and moves the file to the
archive folder.

Every cloud service the script calls is a parameter or an input value:
- the list of file names already recorded (`done`);
- the OCR result (a `Document`);
- the date conversion (`parseDate`);
- today's date (`today`).

`Job.ProcessItem` says which of three things happens:
- the file is skipped;
- a row is written and the file archived;
- an exception escapes.

Modules, one per file:

- `Results` (`results.dfy`): `Option` and `Result`. A `Failure` stands for an exception the script lets escape.
- `Strings` (`strings.dfy`): ASCII lower-casing, and Python's `t in s` and `s.endswith(t)`.
- `Anchors` (`anchors.dfy`): the document shape (segments, text anchors, form fields, pages) and `text_from_anchor`, with Python's clamping slice semantics.
- `Ranking` (`ranking.dfy`): `form_fields_sorted_by_ocr_order`. It is a stable sort by the start of the label's first span. An unset anchor gets key 0. An anchor that is set but has no span raises `IndexError`.
- `Keywords` (`keywords.dfy`): the `\bkw\b` alternation searched with `findall`. It scans left to right and tries the keywords in list order.
- `FieldFilter` (`fieldfilter.dfy`): `form_field_tabular_data` with its `("-", "-", "-")` sentinel, and `get_important_fields`.
- `PyInt` (`pyint.dfy`): Python's `int(text)` for ASCII text (surrounding whitespace, one sign, digits with single underscores).
- `Classifier` (`classifier.dfy`): the loop that fills the identifier and date slots. It is a left fold that stops at the first row that raises; the last matching row wins, and the identifier defaults to 0.
- `Intake` (`intake.dfy`): the base name, the already-processed check, the archive path and the extension-to-MIME mapping.
- `Job` (`job.dfy`): `process_item` put together, plus a worked end-to-end example.

The keyword `#` is not a word character, so `\b#\b` matches only a `#`
with a word character on each side (`Keywords.HashNeedsWordCharsAround`).
A label such as `Invoice #123` therefore matches only through `invoice`
(`Keywords.HashAfterSpaceIsNotAMatch`), and it is kept for that reason.

## Model

| member | source | states |
|---|---|---|
| Strings.Lower | scripts/job.py:113 | `name.lower()` keeps the length, leaves no upper-case ASCII letter, keeps every other character, and moves each upper-case letter to its lower-case partner |
| Strings.LowerIdempotent | scripts/job.py:113 | lower-casing an already lower-cased label changes nothing |
| Strings.ContainsIffOccurs | scripts/job.py:172 | the `in` test on strings holds exactly when the piece occurs at some index |
| Strings.MissingFirstChar | scripts/job.py:172 | a piece whose first character never appears in the text is not `in` it |
| Anchors.PySlice | scripts/job.py:132 | `document.text[start:end]` is the exact slice for in-range bounds, empty when the bounds cross, and never longer than the text |
| Anchors.SliceBound | scripts/job.py:132 | a slice bound is clamped as Python does: kept when in range, the length when past the end, counted from the end when negative, and 0 when it reaches back before the start |
| Anchors.PySliceClamps | scripts/job.py:132 | an end bound past the text reads to its end, a start bound before the text reads from its beginning, and negative bounds count from the end |
| Anchors.SliceOfNormalisedBounds | scripts/job.py:132 | slicing with any bounds equals slicing with the clamped bounds, so every out-of-range bound reads as Python reads it |
| Anchors.SliceIsPiece | scripts/job.py:132 | whatever the bounds, a slice is a contiguous piece of the text |
| Anchors.TextFromAnchor | scripts/job.py:130-135 | the result is the joined span text, cut by exactly one character when, and only when, that text ends in a newline |
| Anchors.JoinedAppend | scripts/job.py:131-134 | joining spans distributes over splitting the span list |
| Anchors.JoinedPiece | scripts/job.py:131-134 | each span's text appears in the joined text right after the texts of the spans before it |
| Anchors.NoSegmentsGiveEmpty | scripts/job.py:130-135 | an anchor without spans resolves to the empty string |
| Anchors.OnlyOneNewlineStripped | scripts/job.py:135 | only one trailing newline is removed: `"a\n\n"` gives `"a\n"` |
| Anchors.WholeTextRoundTrip | scripts/job.py:130-135 | an anchor over the whole text gives the text back, less its final newline if it has one |
| Anchors.SingleSegmentText | scripts/job.py:130-135 | one in-range span not ending in a newline resolves to exactly the characters it covers |
| Ranking.Flatten | scripts/job.py:124-126 | every field of every page is in the flattened list, and nothing else is |
| Ranking.FlattenAppend | scripts/job.py:124-126 | pages contribute their fields in page order |
| Ranking.SortKey | scripts/job.py:119-122 | the key is the start of the label's first span, and 0 when the label anchor is unset |
| Ranking.KeyRaises | scripts/job.py:119-122 | the key computation raises `IndexError` for a set label anchor without spans |
| Ranking.Insert | scripts/job.py:127 | inserting into a sorted list keeps it sorted and adds exactly that field |
| Ranking.InsertWithKey | scripts/job.py:127 | the inserted field goes before the fields of equal key, and their order is kept |
| Ranking.SortByKey | scripts/job.py:127 | the result is sorted by key, is a permutation of the input, and keeps the input order among equal keys (stability) |
| Ranking.FirstRaising | scripts/job.py:119-122 | finds the first field whose key computation raises, or reports that none does |
| Ranking.Rank | scripts/job.py:118-127 | succeeds iff no field's key raises, and then returns a stably sorted permutation of all fields; otherwise names a field that raises |
| Ranking.SortedSameClassesEqual | scripts/job.py:127 | two sorted lists with the same fields per key, in the same order, are equal |
| Ranking.RankIsTheStableOrder | scripts/job.py:118-127 | the ranking is the only sorted list that keeps the page order among equal keys |
| Ranking.SortedInputKept | scripts/job.py:118-127 | fields already in key order are returned unchanged |
| Keywords.FirstAlternative | scripts/job.py:112 | the alternative chosen at a position is a keyword matching there as a whole word; none is chosen only when none matches |
| Keywords.FindAll | scripts/job.py:112-113 | `findall` returns only keywords, and is non-empty iff some keyword matches as a whole word at or after the start |
| Keywords.MatchesKeyword | scripts/job.py:112-114 | `findall` on the lower-cased label finds something iff that label holds a keyword bounded by `\b` on both sides |
| Keywords.NumberingIsNotKept | scripts/job.py:112-114 | whole words only: `Numbering` does not match `number` |
| Keywords.HashNeedsWordCharsAround | scripts/job.py:112 | `\b#\b` matches only with a word character on each side of the `#` |
| Keywords.HashAfterSpaceIsNotAMatch | scripts/job.py:112-113 | `findall` on `"invoice #"` returns only `invoice` |
| Keywords.HashBetweenWordCharsMatches | scripts/job.py:112-113 | `findall` on `"a#b"` returns `#` |
| Keywords.InvoiceHashKept | scripts/job.py:112-114 | the label `Invoice #` is kept |
| Keywords.DateKept | scripts/job.py:112-114 | the label `Date` is kept |
| Keywords.IdKept | scripts/job.py:112-114 | the label `ID` is kept |
| FieldFilter.Filter | scripts/job.py:109-115 | the output is an order-preserving subsequence of the input holding only kept elements and every kept element: all if all are kept, none if none is |
| FieldFilter.FilterCounts | scripts/job.py:109-115 | each kept element occurs in the output exactly as often as in the input, and no other element occurs |
| FieldFilter.FilterIsUnique | scripts/job.py:109-115 | those two facts fix the output: any order-preserving subsequence with those counts is the filter's result |
| FieldFilter.KeepMatching | scripts/job.py:109-115 | the yielded pairs are an order-preserving subsequence of the resolved pairs; each pair whose label matches occurs as often as among the resolved pairs, and no other pair occurs |
| FieldFilter.TabularData | scripts/job.py:104-115 | the sentinel alone iff there are no fields; otherwise an order-preserving subsequence of the resolved pairs holding each matching pair as often as they do and nothing else |
| FieldFilter.NoMatchYieldsNothing | scripts/job.py:106-115 | fields present but none matching give an empty result, not the sentinel |
| FieldFilter.AllMatchingKept | scripts/job.py:109-115 | when every label matches, every resolved pair is yielded |
| FieldFilter.ImportantFields | scripts/job.py:98-101 | fails exactly when ranking fails; otherwise filters the ranked fields; a document without fields gives the sentinel |
| PyInt.TrimStart | scripts/job.py:173 | drops exactly the leading whitespace |
| PyInt.TrimEnd | scripts/job.py:173 | drops exactly the trailing whitespace |
| PyInt.ParseInt | scripts/job.py:173 | `int(text)`: surrounding whitespace stripped, then one optional sign and decimal digits with single underscores between digits; anything else raises |
| PyInt.ShowNatValue | scripts/job.py:173 | the digits printed for `n` spell `n` |
| PyInt.ParseShowRoundTrip | scripts/job.py:173 | `int(str(n)) == n` for every integer (the digit limit is under Left out) |
| PyInt.LeadingSpaceIgnored | scripts/job.py:173 | a leading space does not change what `int` returns |
| PyInt.TrailingNewlineIgnored | scripts/job.py:173 | a trailing newline does not change what `int` returns |
| PyInt.AcceptedCharacters | scripts/job.py:173 | whatever `int` accepts holds only whitespace, signs, digits and underscores |
| PyInt.DateIsNotAnInt | scripts/job.py:173 | `int("03/14/2023")` raises |
| PyInt.ReadsAs4821 | scripts/job.py:173 | `int("4821") == 4821` |
| Classifier.LastMatching | scripts/job.py:171-175 | finds the last row satisfying a test, or reports that none does |
| Classifier.IsIdLabel | scripts/job.py:172 | the identifier test: the lower-cased label contains `number`, `#` or `no` as a plain substring |
| Classifier.IsDateLabel | scripts/job.py:174 | the date test: the lower-cased label contains `date` |
| Classifier.ItemError | scripts/job.py:171-175 | a row raises nothing iff its value reads as an integer when the label selects the identifier and converts as a date when it selects the date; the identifier error comes first and names the row's value |
| Classifier.FoldSucceedsIffNoError | scripts/job.py:171-175 | the loop completes iff no row raises |
| Classifier.FoldFailsAtFirstError | scripts/job.py:171-175 | a failing loop raises the error of the first row that raises |
| Classifier.FoldKeepsLastMatch | scripts/job.py:169-175 | after the loop each slot holds what the last row of its kind produced, or its initial value |
| Classifier.Classify | scripts/job.py:169-178 | succeeds iff no row raises, else fails with the first error; the identifier is `int` of the last identifier row's value (0 if none); the date is the converted value of the last date row (`""` if none) |
| Classifier.SentinelGivesDefaults | scripts/job.py:169-178 | the sentinel row alone gives identifier 0 and an empty date |
| Classifier.LastIdentifierWins | scripts/job.py:172-173 | an appended identifier row decides the identifier |
| Classifier.LastDateWins | scripts/job.py:174-175 | an appended date row decides the date |
| Classifier.NoSlotRowChangesNothing | scripts/job.py:171-175 | appending a row whose label selects no slot leaves the outcome unchanged |
| Classifier.KeptIdLabelFillsNoSlot | scripts/job.py:172-174 | `ID` passes the keyword filter but selects neither slot |
| Classifier.BothSlotsRow | scripts/job.py:172-175 | a readable row whose label selects both slots fills both |
| Classifier.DateNoLabel | scripts/job.py:172-174 | `Date No` selects both slots |
| Classifier.OneRowFillsBothSlots | scripts/job.py:172-175 | the single row `Date No` / `7` gives identifier 7 and the converted date |
| Classifier.FirstRaisingRowDecides | scripts/job.py:171-175 | a leading row that raises decides the outcome, whatever follows |
| Classifier.NoticeDateRowRaises | scripts/job.py:172-173 | `no` is a plain substring test: a `Date of Notice` row is read as an identifier, and `int` on its date raises |
| Classifier.NoticeDateIsReadAsIdentifier | scripts/job.py:171-175 | so a document whose only row is that date fails |
| Classifier.InvoiceHashLabel | scripts/job.py:172-174 | `Invoice #` selects the identifier slot only |
| Classifier.DateLabel | scripts/job.py:172-174 | `Date` selects the date slot only |
| Classifier.LastOfTwo | scripts/job.py:171-175 | the last of two rows passing a test |
| Classifier.ReadsLastRows | scripts/job.py:169-178 | without errors, the slots hold the values of the last identifier row and the last date row |
| Classifier.IdThenDateLastItems | scripts/job.py:171-175 | in an identifier row followed by a date row, each is the last of its kind |
| Classifier.IdRowThenDateRow | scripts/job.py:169-178 | an identifier row then a date row, both readable, fill the two slots |
| Classifier.InvoiceAndDateRows | scripts/job.py:169-178 | rows `Invoice #` / `4821` and `Date` / `03/14/2023` give identifier 4821 and the converted date |
| Intake.SplitOnSlash | scripts/job.py:147 | `split('/')` gives at least one piece, none holding a slash |
| Intake.SplitJoinRoundTrip | scripts/job.py:147 | joining the pieces with `/` gives the name back |
| Intake.Basename | scripts/job.py:147 | the base name is a slash-free suffix that is the whole name or follows a slash |
| Intake.BasenameIsLastPiece | scripts/job.py:147 | `split('/')[-1]` is that base name |
| Intake.UniqueBasename | scripts/job.py:147 | any slash-free suffix that is the whole name or follows a slash is the base name |
| Intake.BasenameOfPlainName | scripts/job.py:147 | a name without a slash is its own base name |
| Intake.BasenameDropsDirectory | scripts/job.py:147 | `folder/name` has base name `name` |
| Intake.AlreadyProcessed | scripts/job.py:147-149 | the file is already processed iff the last piece of `split('/')` is among the recorded names |
| Intake.ArchivePath | scripts/job.py:197 | the destination is `test-docai-processed/` followed by a slash-free name, and that name is the base name of the source |
| Intake.Tail | scripts/job.py:84 | `name[-k:]` for `k > 0`, the only lengths used: the last `k` characters, or the whole name when it is shorter |
| Intake.ExtensionTest | scripts/job.py:84 | the test asks whether the last `len(extension)` characters are a piece of the extension, not whether the name ends with it |
| Intake.MimeOf | scripts/job.py:85-90 | each supported extension maps to its MIME type: `.pdf` to `application/pdf`, `.png` to `image/png`, `.jpg` and `.jpeg` to `image/jpeg` |
| Intake.FirstHit | scripts/job.py:83-90 | a hit yields one of the three MIME types; no extensions, no hit |
| Intake.FirstHitNoneIff | scripts/job.py:83-95 | there is no MIME type iff every extension's test fails |
| Intake.MimeType | scripts/job.py:83-90 | the result is `application/pdf`, `image/jpeg` or `image/png` |
| Intake.MimeTypeNoneIff | scripts/job.py:83-95 | `open_file_in_memory` returns nothing iff the name passes none of the four tests |
| Intake.ContainsSameLength | scripts/job.py:84 | between strings of equal length, `in` is equality |
| Intake.TestIsSuffixTest | scripts/job.py:84 | for a name at least as long as the extension, the test is `endswith` |
| Intake.LongNameTestIsSuffixTest | scripts/job.py:83-90 | for names of five characters or more, the first-hit scan equals the first-suffix mapping |
| Intake.LongNameMime | scripts/job.py:83-90 | such a name gets the MIME type of the first supported extension it ends with |
| Intake.FirstHitAfterMisses | scripts/job.py:83-90 | the first passing test decides |
| Intake.PdfMapped | scripts/job.py:83-86 | a `.pdf` name is `application/pdf` |
| Intake.JpgMapped | scripts/job.py:83-90 | a `.jpg` name is `image/jpeg` |
| Intake.JpegMapped | scripts/job.py:83-90 | a `.jpeg` name is `image/jpeg` |
| Intake.PngMapped | scripts/job.py:83-88 | a `.png` name is `image/png`, as the three earlier tests fail |
| Intake.PngFailsJpegTest | scripts/job.py:84 | a `.png` name fails the `.jpeg` test |
| Intake.OtherEndingsRejected | scripts/job.py:83-95 | matching is case-sensitive: a long name ending in no supported extension (`scan.PDF`) gets no MIME type |
| Intake.ShortNamesPassAsPdf | scripts/job.py:84-86 | the substring test accepts `""` and `"pdf"` as PDF |
| Job.ReturnCode | scripts/job.py:149-201 | the function returns nothing iff it raises, 0 iff it skipped the file, and 1 iff it archived the file |
| Job.ProcessItem | scripts/job.py:138-199 | skipped iff the base name is recorded; raises for a name with no MIME type, then with the ranking error if ranking fails, then with the first row error if classification fails; archives iff ranking and classification succeed, writing the extracted identifier and date, the base name and today's date, and moving the file to `test-docai-processed/<base name>` |
| Job.RecordedFileIsSkipped | scripts/job.py:147-151 | while a file's base name is among the recorded names, the file, its archived copy and any file with the same base name are skipped |
| Job.RecordedAfter | scripts/job.py:180-196 | the recorded names after one call: an archived file's row replaces the whole table (`WRITE_TRUNCATE`), any other outcome leaves it as it was |
| Job.ArchivedFileIsSkippedNext | scripts/job.py:147-196 | right after a file is archived, processing it again is skipped |
| Job.TruncationForgetsEarlierFiles | scripts/job.py:147-196 | once a file with another base name is archived, an earlier file is no longer skipped |
| Job.EmptyDocumentFields | scripts/job.py:98-108 | a document without pages yields only the sentinel |
| Job.EmptyDocumentGivesDefaults | scripts/job.py:138-199 | such a document is recorded with identifier 0 and an empty date |
| Job.InvoiceDocumentRanked | scripts/job.py:118-127 | the example's fields are already in reading order |
| Job.InvoiceDocumentResolved | scripts/job.py:130-135 | the example's fields resolve to `Invoice #` / `4821` and `Date` / `03/14/2023` |
| Job.ExampleRowsKept | scripts/job.py:112-114 | both example labels pass the keyword filter |
| Job.InvoiceFieldsKept | scripts/job.py:109-115 | so the filter yields both pairs, in order |
| Job.InvoiceDocumentFields | scripts/job.py:98-101 | the example document yields exactly those two rows |
| Job.InvoiceScenario | scripts/job.py:138-199 | a new file with that document is recorded with identifier 4821, the converted date, its base name and today's date, and archived |

## Left out

- Google Cloud Storage (`move_blob`, `list_files`, the download in `open_file_in_memory`): network I/O. The move appears only as the destination path in the outcome.
- BigQuery (the query for recorded names, the load job and its schema) and the pandas frame: external table I/O. The recorded names are the `done` parameter, and the written row is the outcome's `Record`. The effect of `WRITE_TRUNCATE` on the recorded names is modelled by `Job.RecordedAfter`.
- The Document AI client and request, and the `os.environ` configuration: foreign calls and environment. The OCR result is the `Document` input.
- `dateutil.parser.parse(...).strftime('%m-%d-%Y')`: flexible date parsing in a library. It is the `parseDate` parameter, with `None` where it raises.
- `datetime.now()`: the wall clock. It is the `today` parameter, already formatted.
- `int()` on non-ASCII input: Unicode digits and Unicode whitespace are not modelled. Only ASCII text is parsed.
- `str.lower()` and `\w` beyond ASCII: only ASCII letters are lower-cased, and only ASCII letters, digits and `_` are word characters.
- `get_text`: unused by the script, and a duplicate of `text_from_anchor` without the newline strip.
- The `try`/`except` around the load and the move (`return 0` on failure): load and move are not modelled, so neither is their failure.
- The `print` calls: console output only.
- The `important_fields is not None` test: `get_important_fields` always returns a list, so the test always passes.
- Segment indices arrive from the service as integers. The model uses unbounded integers and applies Python's slice clamping to them.
- PyInt.ParseInt: CPython's default limit of 4300 digits on integer/string conversion is not modelled. Python's `int()` raises ValueError on a longer digit string; the model parses it.
- PyInt.ParseShowRoundTrip: for the same reason it holds for integers of any length, where Python stops at 4300 digits.
- Job.RecordedFileIsSkipped: skipping holds only while the base name is among the recorded names. The load job writes with `WRITE_TRUNCATE`, so only the last archived row stays in the table, and a file stays skipped only until another file is archived (`Job.TruncationForgetsEarlierFiles`).

=== FILE: anchors.dfy ===
/** The Document AI document shape the pipeline reads, and text-anchor
    resolution (`text_from_anchor` in scripts/job.py). */
module Anchors {
  import opened Strings

  /** One `(start_index, end_index)` span into the document text. */
  datatype Segment = Segment(start: int, end: int)

  /** A text anchor: its spans, plus the `content` field the message also
      carries (only its emptiness matters, see `Ranking`). */
  datatype TextAnchor = TextAnchor(segments: seq<Segment>, content: string)

  /** A detected form field: the anchor of its label and of its value. */
  datatype FormField = FormField(nameAnchor: TextAnchor, valueAnchor: TextAnchor)

  datatype Page = Page(formFields: seq<FormField>)

  /** The recognised full text and the pages with their form fields. */
  datatype Document = Document(text: string, pages: seq<Page>)

  /** Python's normalisation of one slice bound over a sequence of length `n`:
      a negative bound counts from the end, and both ends are clamped. */
  function SliceBound(i: int, n: nat): (b: nat)
    ensures b <= n
    ensures 0 <= i <= n ==> b == i
    ensures n < i ==> b == n
    ensures -(n as int) <= i < 0 ==> b == n + i
    ensures i < -(n as int) ==> b == 0
  {
    if i < 0 then (if n + i < 0 then 0 else n + i)
    else if i > n then n
    else i
  }

  /** `s[lo:hi]` with Python's semantics: never fails, and is empty when the
      normalised bounds cross. */
  function PySlice(s: string, lo: int, hi: int): (r: string)
    ensures 0 <= lo <= hi <= |s| ==> r == s[lo..hi]
    ensures 0 <= hi <= lo ==> r == []
    ensures |r| <= |s|
  {
    var a := SliceBound(lo, |s|);
    var b := SliceBound(hi, |s|);
    if a <= b then s[a..b] else []
  }

  /** Out-of-range and negative bounds: an end past the text stops at its
      end, a start before `-|s|` starts at 0, and a negative bound counts
      from the end. */
  lemma PySliceClamps(s: string, lo: int, hi: int)
    ensures 0 <= lo <= |s| <= hi ==> PySlice(s, lo, hi) == s[lo..]
    ensures lo < -|s| && 0 <= hi <= |s| ==> PySlice(s, lo, hi) == s[..hi]
    ensures -|s| <= lo < 0 && |s| + lo <= hi <= |s| ==> PySlice(s, lo, hi) == s[|s| + lo..hi]
    ensures -|s| <= hi < 0 && 0 <= lo <= |s| + hi ==> PySlice(s, lo, hi) == s[lo..|s| + hi]
  {
  }

  /** Normalising both bounds first changes nothing: every slice is an
      in-range slice of the text. */
  lemma SliceOfNormalisedBounds(s: string, lo: int, hi: int)
    ensures PySlice(s, lo, hi) == PySlice(s, SliceBound(lo, |s|), SliceBound(hi, |s|))
  {
  }

  /** Whatever the bounds, a slice is a contiguous piece of the text. */
  lemma SliceIsPiece(s: string, lo: int, hi: int)
    ensures exists i :: OccursAt(s, PySlice(s, lo, hi), i)
  {
    var a := SliceBound(lo, |s|);
    var b := SliceBound(hi, |s|);
    if a <= b {
      assert OccursAt(s, PySlice(s, lo, hi), a);
    } else {
      assert OccursAt(s, PySlice(s, lo, hi), 0);
    }
  }

  /** The text one span selects. */
  function SegmentText(text: string, seg: Segment): string {
    PySlice(text, seg.start, seg.end)
  }

  /** The texts of `segs`, concatenated in span order (the `"".join(...)`). */
  function Joined(text: string, segs: seq<Segment>): string
    decreases |segs|
  {
    if |segs| == 0 then ""
    else Joined(text, segs[..|segs| - 1]) + SegmentText(text, segs[|segs| - 1])
  }

  /** `s` without its last character when that character is a newline. */
  function DropTrailingNewline(s: string): string {
    if EndsWith(s, "\n") then s[..|s| - 1] else s
  }

  /** `text_from_anchor`: the joined span texts, minus one trailing newline.
      The result is a prefix of the joined text that is exactly one
      character shorter when (and only when) the joined text ends in a
      newline. */
  function TextFromAnchor(anchor: TextAnchor, text: string): (r: string)
    ensures |r| <= |Joined(text, anchor.segments)| <= |r| + 1
    ensures r == Joined(text, anchor.segments)[..|r|]
    ensures |r| < |Joined(text, anchor.segments)| <==> EndsWith(Joined(text, anchor.segments), "\n")
  {
    DropTrailingNewline(Joined(text, anchor.segments))
  }

  /** The last span contributes its text at the end. */
  lemma JoinedLast(text: string, segs: seq<Segment>)
    requires |segs| > 0
    ensures Joined(text, segs) == Joined(text, segs[..|segs| - 1]) + SegmentText(text, segs[|segs| - 1])
  {
  }

  /** Joining distributes over splitting the span list: the spans contribute
      their texts in order. */
  lemma {:induction false} JoinedAppend(text: string, a: seq<Segment>, b: seq<Segment>)
    ensures Joined(text, a + b) == Joined(text, a) + Joined(text, b)
    decreases |b|
  {
    if |b| == 0 {
      assert a + b == a;
    } else {
      var b' := b[..|b| - 1];
      var ab := a + b;
      assert ab[..|ab| - 1] == a + b';
      assert ab[|ab| - 1] == b[|b| - 1];
      JoinedLast(text, ab);
      JoinedLast(text, b);
      JoinedAppend(text, a, b');
    }
  }

  /** Each span's text sits in the joined text right after the texts of the
      spans before it. */
  lemma JoinedPiece(text: string, segs: seq<Segment>, k: nat)
    requires k < |segs|
    ensures var pre := |Joined(text, segs[..k])|;
            pre + |SegmentText(text, segs[k])| <= |Joined(text, segs)|
            && Joined(text, segs)[pre..pre + |SegmentText(text, segs[k])|] == SegmentText(text, segs[k])
  {
    assert segs == segs[..k] + [segs[k]] + segs[k + 1..];
    JoinedAppend(text, segs[..k] + [segs[k]], segs[k + 1..]);
    JoinedAppend(text, segs[..k], [segs[k]]);
    assert [segs[k]][..0] == [];
  }

  /** With no spans the anchor resolves to the empty string. */
  lemma NoSegmentsGiveEmpty(content: string, text: string)
    ensures TextFromAnchor(TextAnchor([], content), text) == ""
  {
  }

  /** Only one newline is removed: `"a\n\n"` resolves to `"a\n"`. */
  lemma OnlyOneNewlineStripped()
    ensures TextFromAnchor(TextAnchor([Segment(0, 3)], ""), "a\n\n") == "a\n"
  {
    assert [Segment(0, 3)][..0] == [];
  }

  /** An anchor covering the whole text gives back the text, without its
      final newline if it has one. */
  lemma WholeTextRoundTrip(text: string)
    ensures var r := TextFromAnchor(TextAnchor([Segment(0, |text|)], ""), text);
            if EndsWith(text, "\n") then r + "\n" == text else r == text
  {
    assert [Segment(0, |text|)][..0] == [];
    assert Joined(text, [Segment(0, |text|)]) == text;
  }

  /** One span inside the text that does not end in a newline resolves to
      exactly the characters it covers. */
  lemma SingleSegmentText(text: string, lo: int, hi: int, content: string)
    requires 0 <= lo <= hi <= |text|
    requires lo == hi || text[hi - 1] != '\n'
    ensures TextFromAnchor(TextAnchor([Segment(lo, hi)], content), text) == text[lo..hi]
  {
    var segs := [Segment(lo, hi)];
    assert segs[..0] == [];
    assert Joined(text, segs) == text[lo..hi];
    assert !EndsWith(text[lo..hi], "\n");
  }
}

=== FILE: classifier.dfy ===
/** The classification loop of `process_item`: a left fold over the filtered
    rows that fills the identifier and date slots, the last match winning. */
module Classifier {
  import opened Results
  import opened Strings
  import opened PyInt
  import opened FieldFilter
  import opened Keywords

  /** The lower-cased label contains `number`, `#` or `no` (plain substring
      tests, so `Donation` qualifies). */
  predicate IsIdLabel(name: string) {
    var l := Lower(name);
    Contains(l, "number") || Contains(l, "#") || Contains(l, "no")
  }

  /** The lower-cased label contains `date`. */
  predicate IsDateLabel(name: string) {
    Contains(Lower(name), "date")
  }

  /** `tmp_id` (`None` while it is still `''`) and `tmp_date`. */
  datatype Slots = Slots(id: Option<int>, date: string)

  /** The exception one row raises: `int(...)` on an identifier value, or the
      date parse on a date value. */
  datatype ClassifyError = InvalidIdentifier(text: string) | InvalidDate(text: string)

  /** The extracted identifier and date. */
  datatype Extracted = Extracted(id: int, date: string)

  /** `parseDate` stands for `parse(str(v)).strftime('%m-%d-%Y')`, `None`
      where that raises. */
  type DateParser = string -> Option<string>

  /** The error processing `item` raises, if any; the identifier test runs
      before the date test. */
  function ItemError(item: Item, parseDate: DateParser): (r: Option<ClassifyError>)
    ensures r.None? <==> (IsIdLabel(item.Label()) ==> ParseInt(item.Value()).Some?)
                         && (IsDateLabel(item.Label()) ==> parseDate(item.Value()).Some?)
    ensures r.Some? ==> r.value.text == item.Value()
    ensures r.Some? && r.value.InvalidIdentifier? <==> IsIdLabel(item.Label()) && ParseInt(item.Value()).None?
  {
    if IsIdLabel(item.Label()) && ParseInt(item.Value()).None? then Some(InvalidIdentifier(item.Value()))
    else if IsDateLabel(item.Label()) && parseDate(item.Value()).None? then Some(InvalidDate(item.Value()))
    else None
  }

  /** One loop iteration: raise the row's error, or set the slots its label
      selects. */
  function Step(acc: Slots, item: Item, parseDate: DateParser): (r: Result<Slots, ClassifyError>)
    ensures r.Failure? <==> ItemError(item, parseDate).Some?
    ensures r.Failure? ==> ItemError(item, parseDate) == Some(r.error)
    ensures r.Success? ==> r.value.id == if IsIdLabel(item.Label()) then ParseInt(item.Value()) else acc.id
    ensures r.Success? ==> if IsDateLabel(item.Label()) then parseDate(item.Value()) == Some(r.value.date)
                           else r.value.date == acc.date
  {
    match ItemError(item, parseDate)
    case Some(e) => Failure(e)
    case None =>
      var id := if IsIdLabel(item.Label()) then ParseInt(item.Value()) else acc.id;
      var date := if IsDateLabel(item.Label()) then parseDate(item.Value()).value else acc.date;
      Success(Slots(id, date))
  }

  /** Index of the last item satisfying `p`. */
  function LastMatching(items: seq<Item>, p: Item -> bool): (r: Option<nat>)
    ensures r.Some? ==> r.value < |items| && p(items[r.value])
    ensures r.Some? ==> forall j :: r.value < j < |items| ==> !p(items[j])
    ensures r.None? ==> forall j :: 0 <= j < |items| ==> !p(items[j])
  {
    if |items| == 0 then None
    else if p(items[|items| - 1]) then Some(|items| - 1)
    else LastMatching(items[..|items| - 1], p)
  }

  /** The row's label selects the identifier slot. */
  predicate IsIdRow(item: Item) {
    IsIdLabel(item.Label())
  }

  /** The row's label selects the date slot. */
  predicate IsDateRow(item: Item) {
    IsDateLabel(item.Label())
  }

  function LastIdItem(items: seq<Item>): Option<nat> {
    LastMatching(items, IsIdRow)
  }

  function LastDateItem(items: seq<Item>): Option<nat> {
    LastMatching(items, IsDateRow)
  }

  /** A left fold that stops at the first element whose step raises. */
  function FoldUntilFailure<T, S, E>(init: S, xs: seq<T>, step: (S, T) -> Result<S, E>): Result<S, E>
    decreases |xs|
  {
    if |xs| == 0 then Success(init)
    else
      match FoldUntilFailure(init, xs[..|xs| - 1], step)
      case Failure(e) => Failure(e)
      case Success(acc) => step(acc, xs[|xs| - 1])
  }

  /** `step` raises on `x` exactly when `err(x)` names an error, and then
      raises that error, whatever the accumulator. */
  ghost predicate RaisesExactly<T(!new), S(!new), E>(step: (S, T) -> Result<S, E>, err: T -> Option<E>) {
    forall acc: S, x: T :: (step(acc, x).Failure? <==> err(x).Some?)
                           && (step(acc, x).Failure? ==> err(x) == Some(step(acc, x).error))
  }

  /** Such a fold succeeds exactly when no element raises. */
  lemma {:induction false} FoldSucceedsIffNoError<T(!new), S(!new), E>(init: S, xs: seq<T>, step: (S, T) -> Result<S, E>, err: T -> Option<E>)
    requires RaisesExactly(step, err)
    ensures FoldUntilFailure(init, xs, step).Success? <==> forall i :: 0 <= i < |xs| ==> err(xs[i]).None?
    decreases |xs|
  {
    if |xs| > 0 {
      var n := |xs| - 1;
      var prefix := xs[..n];
      FoldSucceedsIffNoError(init, prefix, step, err);
      assert forall i :: 0 <= i < n ==> prefix[i] == xs[i];
    }
  }

  /** A failing fold fails with the error of the first element that
      raises. */
  lemma {:induction false} FoldFailsAtFirstError<T(!new), S(!new), E>(init: S, xs: seq<T>, step: (S, T) -> Result<S, E>, err: T -> Option<E>)
    requires RaisesExactly(step, err)
    requires FoldUntilFailure(init, xs, step).Failure?
    ensures exists i :: 0 <= i < |xs| && err(xs[i]) == Some(FoldUntilFailure(init, xs, step).error)
                        && forall j :: 0 <= j < i ==> err(xs[j]).None?
    decreases |xs|
  {
    var n := |xs| - 1;
    var prefix := xs[..n];
    assert forall i :: 0 <= i < n ==> prefix[i] == xs[i];
    if FoldUntilFailure(init, prefix, step).Success? {
      FoldSucceedsIffNoError(init, prefix, step, err);
      assert err(xs[n]) == Some(FoldUntilFailure(init, xs, step).error);
    } else {
      FoldFailsAtFirstError(init, prefix, step, err);
    }
  }

  function StepWith(parseDate: DateParser): (Slots, Item) -> Result<Slots, ClassifyError> {
    (acc, item) => Step(acc, item, parseDate)
  }

  function ErrorWith(parseDate: DateParser): Item -> Option<ClassifyError> {
    item => ItemError(item, parseDate)
  }

  /** The loop over `items`, from empty slots. */
  function Fold(items: seq<Item>, parseDate: DateParser): Result<Slots, ClassifyError> {
    FoldUntilFailure(Slots(None, ""), items, StepWith(parseDate))
  }

  /** `Step` raises exactly the errors `ItemError` names. */
  lemma StepRaisesItemError(parseDate: DateParser)
    ensures RaisesExactly(StepWith(parseDate), ErrorWith(parseDate))
  {
  }

  /** After the loop the identifier slot holds what the last
      identifier-labelled row produced, and the date slot what the last
      date-labelled row produced. */
  lemma {:induction false} FoldKeepsLastMatch(items: seq<Item>, parseDate: DateParser)
    requires Fold(items, parseDate).Success?
    ensures match LastIdItem(items)
            case None => Fold(items, parseDate).value.id.None?
            case Some(i) => ParseInt(items[i].Value()) == Fold(items, parseDate).value.id
                            && Fold(items, parseDate).value.id.Some?
    ensures match LastDateItem(items)
            case None => Fold(items, parseDate).value.date == ""
            case Some(i) => parseDate(items[i].Value()) == Some(Fold(items, parseDate).value.date)
    decreases |items|
  {
    if |items| > 0 {
      var n := |items| - 1;
      var prefix := items[..n];
      var before := Fold(prefix, parseDate);
      assert before.Success?;
      FoldKeepsLastMatch(prefix, parseDate);
      assert prefix == items[..|items| - 1];
      if !IsIdLabel(items[n].Label()) {
        assert LastIdItem(items) == LastIdItem(prefix);
      }
      if !IsDateLabel(items[n].Label()) {
        assert LastDateItem(items) == LastDateItem(prefix);
      }
    }
  }

  /** The classification: the fold, then `tmp_id` defaults to 0. The id is
      the integer value of the last identifier-labelled row (0 without one),
      the date the parsed value of the last date-labelled row (`""` without
      one); any row whose value does not parse makes the document fail. */
  function Classify(items: seq<Item>, parseDate: DateParser): (r: Result<Extracted, ClassifyError>)
    ensures r.Success? <==> forall i :: 0 <= i < |items| ==> ItemError(items[i], parseDate).None?
    ensures r.Failure? ==> exists i :: 0 <= i < |items| && ItemError(items[i], parseDate) == Some(r.error)
                                       && forall j :: 0 <= j < i ==> ItemError(items[j], parseDate).None?
    ensures r.Success? ==> match LastIdItem(items)
                           case None => r.value.id == 0
                           case Some(i) => ParseInt(items[i].Value()) == Some(r.value.id)
    ensures r.Success? ==> match LastDateItem(items)
                           case None => r.value.date == ""
                           case Some(i) => parseDate(items[i].Value()) == Some(r.value.date)
  {
    StepRaisesItemError(parseDate);
    FoldSucceedsIffNoError(Slots(None, ""), items, StepWith(parseDate), ErrorWith(parseDate));
    var folded := Fold(items, parseDate);
    if folded.Failure? then
      FoldFailsAtFirstError(Slots(None, ""), items, StepWith(parseDate), ErrorWith(parseDate));
      Failure(folded.error)
    else
      FoldKeepsLastMatch(items, parseDate);
      Success(Extracted(folded.value.id.GetOr(0), folded.value.date))
  }

  /** The sentinel row matches no rule: identifier 0 and an empty date. */
  lemma SentinelGivesDefaults(parseDate: DateParser)
    ensures Classify([Sentinel], parseDate) == Success(Extracted(0, ""))
  {
    assert Lower("-") == "-";
    MissingFirstChar("-", "#");
  }

  /** Appending an identifier-labelled row decides the identifier, whatever
      came before. */
  lemma LastIdentifierWins(items: seq<Item>, row: Item, parseDate: DateParser)
    requires IsIdLabel(row.Label())
    ensures Classify(items + [row], parseDate).Success? ==>
              ParseInt(row.Value()) == Some(Classify(items + [row], parseDate).value.id)
  {
    assert (items + [row])[|items|] == row;
  }

  /** Appending a date-labelled row decides the date, whatever came
      before. */
  lemma LastDateWins(items: seq<Item>, row: Item, parseDate: DateParser)
    requires IsDateLabel(row.Label())
    ensures Classify(items + [row], parseDate).Success? ==>
              parseDate(row.Value()) == Some(Classify(items + [row], parseDate).value.date)
  {
    assert (items + [row])[|items|] == row;
  }

  /** A readable row whose label selects both slots fills both. */
  lemma BothSlotsRow(name: string, value: string, parseDate: DateParser, n: int, d: string)
    requires IsIdLabel(name) && IsDateLabel(name)
    requires ParseInt(value) == Some(n) && parseDate(value) == Some(d)
    ensures Classify([Pair(name, value)], parseDate) == Success(Extracted(n, d))
  {
    var row := Pair(name, value);
    var items := [row];
    assert ItemError(row, parseDate).None?;
    assert items[0] == row;
    var r := Classify(items, parseDate);
    assert r.Success?;
    assert LastIdItem(items) == Some(0) && LastDateItem(items) == Some(0);
    assert ParseInt(value) == Some(r.value.id);
    assert parseDate(value) == Some(r.value.date);
  }

  /** `Date No` selects both slots. */
  lemma DateNoLabel(name: string)
    requires name == "Date No"
    ensures IsIdLabel(name) && IsDateLabel(name)
  {
    assert Lower(name) == "date no";
    ContainsWitness("date no", "no", 5);
    ContainsWitness("date no", "date", 0);
  }

  /** A row whose label selects neither slot changes nothing: it cannot
      raise and the slots keep their values. */
  lemma NoSlotRowChangesNothing(items: seq<Item>, row: Item, parseDate: DateParser)
    requires !IsIdRow(row) && !IsDateRow(row)
    ensures Classify(items + [row], parseDate) == Classify(items, parseDate)
  {
    var xs := items + [row];
    assert xs[..|xs| - 1] == items;
    assert xs[|xs| - 1] == row;
    assert forall acc :: Step(acc, row, parseDate) == Success(acc);
    assert Fold(xs, parseDate) == Fold(items, parseDate);
  }

  /** The filter keeps `ID` (through the keyword `id`), yet the label
      selects neither slot. */
  lemma KeptIdLabelFillsNoSlot(name: string)
    requires name == "ID"
    ensures MatchesKeyword(name) && !IsIdLabel(name) && !IsDateLabel(name)
  {
    IdKept(name);
    IdSelectsNoSlot(name);
  }

  /** `ID` holds none of `number`, `#`, `no` and `date`. */
  lemma IdSelectsNoSlot(name: string)
    requires name == "ID"
    ensures !IsIdLabel(name) && !IsDateLabel(name)
  {
    var s := Lower(name);
    assert s == "id";
    MissingFirstChar(s, "number");
    MissingFirstChar(s, "#");
    MissingFirstChar(s, "no");
    assert !Contains(s, "date");
  }

  /** One row can fill both slots. */
  lemma OneRowFillsBothSlots(parseDate: DateParser, row: Item)
    requires row == Pair("Date No", "7")
    requires parseDate("7") == Some("01-07-2024")
    ensures Classify([row], parseDate) == Success(Extracted(7, "01-07-2024"))
  {
    DateNoLabel(row.name);
    ParseShowRoundTrip(7);
    assert Show(7) == row.value;
    BothSlotsRow(row.name, row.value, parseDate, 7, "01-07-2024");
  }

  /** A leading row that raises decides the outcome, whatever follows. */
  lemma FirstRaisingRowDecides(row: Item, rest: seq<Item>, parseDate: DateParser)
    requires ItemError(row, parseDate).Some?
    ensures Classify([row] + rest, parseDate) == Failure(ItemError(row, parseDate).value)
  {
    var items := [row] + rest;
    assert items[0] == row;
    var r := Classify(items, parseDate);
    assert r.Failure?;
    var i :| 0 <= i < |items| && ItemError(items[i], parseDate) == Some(r.error)
             && forall j :: 0 <= j < i ==> ItemError(items[j], parseDate).None?;
    assert i == 0;
  }

  /** `no` is a plain substring test: a date labelled "Date of Notice" is
      read as an identifier, and `int` on it raises. */
  lemma NoticeDateRowRaises(parseDate: DateParser)
    ensures ItemError(Pair("Date of Notice", "03/14/2023"), parseDate) == Some(InvalidIdentifier("03/14/2023"))
  {
    assert Lower("Date of Notice") == "date of notice";
    ContainsWitness("date of notice", "no", 8);
    DateIsNotAnInt();
  }

  /** So a document whose only row is that date fails as a whole. */
  lemma NoticeDateIsReadAsIdentifier(parseDate: DateParser, row: Item)
    requires row == Pair("Date of Notice", "03/14/2023")
    ensures Classify([row], parseDate) == Failure(InvalidIdentifier("03/14/2023"))
  {
    NoticeDateRowRaises(parseDate);
    FirstRaisingRowDecides(row, [], parseDate);
    assert [row] + [] == [row];
  }

  /** `Invoice #` selects the identifier slot only. */
  lemma InvoiceHashLabel(name: string)
    requires name == "Invoice #"
    ensures IsIdLabel(name) && !IsDateLabel(name)
  {
    assert Lower(name) == "invoice #";
    ContainsWitness("invoice #", "#", 8);
    MissingFirstChar("invoice #", "date");
  }

  /** `Date` selects the date slot only. */
  lemma DateLabel(name: string)
    requires name == "Date"
    ensures IsDateLabel(name) && !IsIdLabel(name)
  {
    assert Lower(name) == "date";
    MissingFirstChar("date", "number");
    MissingFirstChar("date", "#");
    MissingFirstChar("date", "no");
    ContainsWitness("date", "date", 0);
  }

  /** The last of two items satisfying `p`. */
  lemma LastOfTwo(a: Item, b: Item, p: Item -> bool)
    ensures LastMatching([a, b], p) == if p(b) then Some(1) else if p(a) then Some(0) else None
  {
    assert [a, b][..1] == [a];
  }

  /** A readable identifier-only row raises nothing. */
  lemma IdRowReads(name: string, value: string, parseDate: DateParser, n: int)
    requires IsIdLabel(name) && !IsDateLabel(name) && ParseInt(value) == Some(n)
    ensures ItemError(Pair(name, value), parseDate).None?
  {
  }

  /** A readable date-only row raises nothing. */
  lemma DateRowReads(name: string, value: string, parseDate: DateParser, d: string)
    requires IsDateLabel(name) && !IsIdLabel(name) && parseDate(value) == Some(d)
    ensures ItemError(Pair(name, value), parseDate).None?
  {
  }

  /** Classification succeeds with the values the last identifier and
      date rows read as, when no row raises. */
  lemma ReadsLastRows(items: seq<Item>, parseDate: DateParser, i: nat, j: nat, n: int, d: string)
    requires forall k :: 0 <= k < |items| ==> ItemError(items[k], parseDate).None?
    requires LastIdItem(items) == Some(i) && i < |items| && ParseInt(items[i].Value()) == Some(n)
    requires LastDateItem(items) == Some(j) && j < |items| && parseDate(items[j].Value()) == Some(d)
    ensures Classify(items, parseDate) == Success(Extracted(n, d))
  {
  }

  /** Two rows that raise nothing. */
  lemma NeitherRaises(a: Item, b: Item, parseDate: DateParser)
    requires ItemError(a, parseDate).None? && ItemError(b, parseDate).None?
    ensures forall k :: 0 <= k < |[a, b]| ==> ItemError([a, b][k], parseDate).None?
  {
  }

  /** In an identifier-only row followed by a date-only row, each is the
      last row of its kind. */
  lemma IdThenDateLastItems(a: Item, b: Item)
    requires IsIdRow(a) && !IsDateRow(a)
    requires IsDateRow(b) && !IsIdRow(b)
    ensures LastIdItem([a, b]) == Some(0) && LastDateItem([a, b]) == Some(1)
  {
    LastOfTwo(a, b, IsIdRow);
    LastOfTwo(a, b, IsDateRow);
  }

  /** An identifier-only row then a date-only row, both readable, fill
      the two slots. */
  lemma IdRowThenDateRow(idName: string, idValue: string, dateName: string, dateValue: string,
                         parseDate: DateParser, n: int, d: string)
    requires IsIdLabel(idName) && !IsDateLabel(idName) && ParseInt(idValue) == Some(n)
    requires IsDateLabel(dateName) && !IsIdLabel(dateName) && parseDate(dateValue) == Some(d)
    ensures Classify([Pair(idName, idValue), Pair(dateName, dateValue)], parseDate) == Success(Extracted(n, d))
  {
    var a, b := Pair(idName, idValue), Pair(dateName, dateValue);
    IdRowReads(idName, idValue, parseDate, n);
    DateRowReads(dateName, dateValue, parseDate, d);
    NeitherRaises(a, b, parseDate);
    IdThenDateLastItems(a, b);
    ReadsLastRows([a, b], parseDate, 0, 1, n, d);
  }

  /** The worked example: an `Invoice #` row holding 4821 followed by a
      `Date` row gives identifier 4821 and the converted date. */
  lemma InvoiceAndDateRows(parseDate: DateParser, items: seq<Item>, d: string)
    requires items == [Pair("Invoice #", "4821"), Pair("Date", "03/14/2023")]
    requires parseDate("03/14/2023") == Some(d)
    ensures Classify(items, parseDate) == Success(Extracted(4821, d))
  {
    InvoiceHashLabel(items[0].name);
    DateLabel(items[1].name);
    ReadsAs4821(items[0].value);
    IdRowThenDateRow(items[0].name, items[0].value, items[1].name, items[1].value, parseDate, 4821, d);
  }
}

=== FILE: fieldfilter.dfy ===
/** `form_field_tabular_data` and `get_important_fields`: resolve each ranked
    field to a `(name, value)` pair and keep those whose label holds a
    keyword; a document without fields yields the sentinel row. */
module FieldFilter {
  import opened Results
  import opened Anchors
  import opened Ranking
  import opened Keywords

  /** One yielded row: the `("-", "-", "-")` sentinel or a `(name, value)`
      pair. */
  datatype Item = Sentinel | Pair(name: string, value: string) {
    /** `item[0]` */
    function Label(): string {
      if Sentinel? then "-" else name
    }
    /** `item[1]` */
    function Value(): string {
      if Sentinel? then "-" else value
    }
  }

  /** The resolved texts of a field's label and value. */
  function Resolve(f: FormField, text: string): Item {
    Pair(TextFromAnchor(f.nameAnchor, text), TextFromAnchor(f.valueAnchor, text))
  }

  /** Every field resolved, in order. */
  function ResolveAll(fields: seq<FormField>, text: string): (r: seq<Item>)
    ensures |r| == |fields|
    ensures forall i :: 0 <= i < |fields| ==> r[i] == Resolve(fields[i], text)
  {
    seq(|fields|, i requires 0 <= i < |fields| => Resolve(fields[i], text))
  }

  /** `a` is `b` with some elements left out, order kept. */
  ghost predicate IsSubsequence<T>(a: seq<T>, b: seq<T>)
    decreases |b|
  {
    if |a| == 0 then true
    else if |b| == 0 then false
    else (a[0] == b[0] && IsSubsequence(a[1..], b[1..])) || IsSubsequence(a, b[1..])
  }

  /** `r` holds every element that satisfies `keep` exactly as often as
      `xs` does, and no other element. */
  ghost predicate CountsKept<T(!new)>(r: seq<T>, xs: seq<T>, keep: T -> bool)
  {
    forall x :: multiset(r)[x] == if keep(x) then multiset(xs)[x] else 0
  }

  /** The elements of `xs` that satisfy `keep`, in their order in `xs`. */
  function Filter<T(!new)>(xs: seq<T>, keep: T -> bool): (r: seq<T>)
    ensures IsSubsequence(r, xs)
    ensures forall j :: 0 <= j < |r| ==> keep(r[j])
    ensures forall i :: 0 <= i < |xs| && keep(xs[i]) ==> xs[i] in r
    ensures (forall i :: 0 <= i < |xs| ==> keep(xs[i])) ==> r == xs
    ensures (forall i :: 0 <= i < |xs| ==> !keep(xs[i])) ==> r == []
  {
    if |xs| == 0 then []
    else
      var rest := Filter(xs[1..], keep);
      assert forall i :: 1 <= i < |xs| ==> xs[i] == xs[1..][i - 1];
      assert xs == [xs[0]] + xs[1..];
      if keep(xs[0]) then
        assert ([xs[0]] + rest)[1..] == rest;
        [xs[0]] + rest
      else
        SubsequenceOfTail(rest, xs[0], xs[1..]);
        rest
  }

  /** Filtering one more element in front of a filtered tail keeps the
      counts right. */
  lemma CountsStep<T(!new)>(xs: seq<T>, rest: seq<T>, keep: T -> bool)
    requires |xs| > 0
    requires CountsKept(rest, xs[1..], keep)
    ensures CountsKept(if keep(xs[0]) then [xs[0]] + rest else rest, xs, keep)
  {
    assert xs == [xs[0]] + xs[1..];
    assert multiset(xs) == multiset{xs[0]} + multiset(xs[1..]);
    assert multiset([xs[0]] + rest) == multiset{xs[0]} + multiset(rest);
  }

  /** The filter keeps each kept element as often as the input holds it,
      and holds no other element. */
  lemma {:induction false} FilterCounts<T(!new)>(xs: seq<T>, keep: T -> bool)
    ensures CountsKept(Filter(xs, keep), xs, keep)
    decreases |xs|
  {
    if |xs| > 0 {
      FilterCounts(xs[1..], keep);
      CountsStep(xs, Filter(xs[1..], keep), keep);
    }
  }

  /** A subsequence holds no element more often than the whole. */
  lemma {:induction false} SubsequenceMultiset<T>(a: seq<T>, b: seq<T>)
    requires IsSubsequence(a, b)
    ensures multiset(a) <= multiset(b)
    decreases |b|
  {
    if |a| > 0 {
      assert b == [b[0]] + b[1..];
      if a[0] == b[0] && IsSubsequence(a[1..], b[1..]) {
        SubsequenceMultiset(a[1..], b[1..]);
        assert a == [a[0]] + a[1..];
      } else {
        SubsequenceMultiset(a, b[1..]);
      }
    }
  }

  /** The filter's result is the only order-preserving subsequence of `xs`
      that holds each kept element exactly as often as `xs` does and
      nothing else. */
  lemma {:induction false} FilterIsUnique<T(!new)>(xs: seq<T>, keep: T -> bool, r: seq<T>)
    requires IsSubsequence(r, xs)
    requires CountsKept(r, xs, keep)
    ensures r == Filter(xs, keep)
    decreases |xs|
  {
    if |xs| == 0 {
      assert |r| == 0;
    } else {
      var x0 := xs[0];
      var tail := xs[1..];
      assert xs == [x0] + tail;
      assert multiset(xs) == multiset{x0} + multiset(tail);
      if keep(x0) {
        assert multiset(r)[x0] > 0;
        assert |r| > 0;
        if r[0] == x0 && IsSubsequence(r[1..], tail) {
          assert r == [x0] + r[1..];
          assert multiset(r) == multiset{x0} + multiset(r[1..]);
          FilterIsUnique(tail, keep, r[1..]);
        } else {
          SubsequenceMultiset(r, tail);
          assert false;
        }
      } else {
        if |r| > 0 && r[0] == x0 {
          assert false;
        }
        assert IsSubsequence(r, tail);
        FilterIsUnique(tail, keep, r);
      }
    }
  }

  lemma SubsequenceOfTail<T>(a: seq<T>, x: T, b: seq<T>)
    requires IsSubsequence(a, b)
    ensures IsSubsequence(a, [x] + b)
  {
    assert ([x] + b)[1..] == b;
  }

  /** The filter's test on one row: a pair whose label matches a keyword. */
  predicate Kept(item: Item) {
    item.Pair? && MatchesKeyword(item.name)
  }

  /** The field loop: the resolved pairs whose label matches a keyword, in
      field order. A pair is kept if and only if its label matches. */
  function KeepMatching(fields: seq<FormField>, text: string): (r: seq<Item>)
    ensures IsSubsequence(r, ResolveAll(fields, text))
    ensures forall j :: 0 <= j < |r| ==> Kept(r[j])
    ensures forall i :: 0 <= i < |fields| && Kept(ResolveAll(fields, text)[i]) ==> ResolveAll(fields, text)[i] in r
    ensures CountsKept(r, ResolveAll(fields, text), Kept)
    ensures (forall i :: 0 <= i < |fields| ==> Kept(ResolveAll(fields, text)[i])) ==> r == ResolveAll(fields, text)
    ensures (forall i :: 0 <= i < |fields| ==> !Kept(ResolveAll(fields, text)[i])) ==> r == []
  {
    var resolved := ResolveAll(fields, text);
    FilterCounts(resolved, Kept);
    Filter(resolved, Kept)
  }

  /** `form_field_tabular_data`: with no fields, only the sentinel; otherwise
      the keyword-matching pairs (possibly none). */
  function TabularData(fields: seq<FormField>, text: string): (r: seq<Item>)
    ensures |fields| == 0 <==> r == [Sentinel]
    ensures |fields| > 0 ==> IsSubsequence(r, ResolveAll(fields, text))
    ensures |fields| > 0 ==> forall j :: 0 <= j < |r| ==> Kept(r[j])
    ensures forall i :: 0 <= i < |fields| && Kept(Resolve(fields[i], text)) ==> Resolve(fields[i], text) in r
    ensures |fields| > 0 ==> CountsKept(r, ResolveAll(fields, text), Kept)
  {
    if |fields| == 0 then [Sentinel] else KeepMatching(fields, text)
  }

  /** With fields present but none matching, nothing is yielded, not even
      the sentinel. */
  lemma NoMatchYieldsNothing(fields: seq<FormField>, text: string)
    requires |fields| > 0
    requires forall i :: 0 <= i < |fields| ==> !Kept(Resolve(fields[i], text))
    ensures TabularData(fields, text) == []
  {
  }

  /** `get_important_fields`: rank the document's fields, then filter them. */
  function ImportantFields(doc: Document): (r: Result<seq<Item>, RankError>)
    ensures r.Success? <==> Rank(doc).Success?
    ensures r.Failure? ==> r.error == Rank(doc).error
    ensures r.Success? ==> r.value == TabularData(Rank(doc).value, doc.text)
    ensures Flatten(doc.pages) == [] ==> r == Success([Sentinel])
  {
    match Rank(doc)
    case Failure(e) => Failure(e)
    case Success(ranked) => Success(TabularData(ranked, doc.text))
  }

  /** When every label matches, the filter keeps every resolved pair. */
  lemma AllMatchingKept(fields: seq<FormField>, text: string)
    requires |fields| > 0
    requires forall i :: 0 <= i < |fields| ==> Kept(ResolveAll(fields, text)[i])
    ensures TabularData(fields, text) == ResolveAll(fields, text)
  {
  }
}

=== FILE: intake.dfy ===
/** What `process_item` and `open_file_in_memory` decide from a file name
    alone: the base name, the already-processed test, the archive path and
    the MIME type. */
module Intake {
  import opened Results
  import opened Strings

  /** `s.split('/')`: the pieces between slashes, at least one. */
  function SplitOnSlash(s: string): (r: seq<string>)
    ensures |r| >= 1
    ensures forall i :: 0 <= i < |r| ==> '/' !in r[i]
  {
    if |s| == 0 then [""]
    else
      var init := SplitOnSlash(s[..|s| - 1]);
      if s[|s| - 1] == '/' then init + [""]
      else init[..|init| - 1] + [init[|init| - 1] + [s[|s| - 1]]]
  }

  /** The pieces joined back with `/`. */
  function JoinWithSlash(pieces: seq<string>): string
    requires |pieces| >= 1
  {
    if |pieces| == 1 then pieces[0]
    else JoinWithSlash(pieces[..|pieces| - 1]) + "/" + pieces[|pieces| - 1]
  }

  /** Extending the last piece extends the joined text. */
  lemma JoinExtendLast(pieces: seq<string>, x: string)
    requires |pieces| >= 1
    ensures JoinWithSlash(pieces[..|pieces| - 1] + [pieces[|pieces| - 1] + x]) == JoinWithSlash(pieces) + x
  {
    var n := |pieces|;
    var q := pieces[..n - 1] + [pieces[n - 1] + x];
    assert q[..n - 1] == pieces[..n - 1];
  }

  /** Adding an empty piece adds a slash. */
  lemma JoinEmptyLast(pieces: seq<string>)
    requires |pieces| >= 1
    ensures JoinWithSlash(pieces + [""]) == JoinWithSlash(pieces) + "/"
  {
    assert (pieces + [""])[..|pieces|] == pieces;
  }

  /** Splitting loses nothing: joining the pieces gives the name back. */
  lemma {:induction false} SplitJoinRoundTrip(s: string)
    ensures JoinWithSlash(SplitOnSlash(s)) == s
  {
    if |s| > 0 {
      var prefix := s[..|s| - 1];
      var c := s[|s| - 1];
      SplitJoinRoundTrip(prefix);
      assert s == prefix + [c];
      var init := SplitOnSlash(prefix);
      if c == '/' {
        JoinEmptyLast(init);
      } else {
        JoinExtendLast(init, [c]);
      }
    }
  }

  /** The name after the last `/` (all of `path` when it has none): the
      longest suffix of `path` without a slash. */
  function Basename(path: string): (r: string)
    ensures |r| <= |path| && r == path[|path| - |r|..]
    ensures '/' !in r
    ensures |r| < |path| ==> path[|path| - |r| - 1] == '/'
  {
    if |path| == 0 || path[|path| - 1] == '/' then ""
    else Basename(path[..|path| - 1]) + [path[|path| - 1]]
  }

  /** `filename.split(sep='/')[-1]` is `Basename(filename)`. */
  lemma {:induction false} BasenameIsLastPiece(path: string)
    ensures SplitOnSlash(path)[|SplitOnSlash(path)| - 1] == Basename(path)
  {
    if |path| > 0 {
      BasenameIsLastPiece(path[..|path| - 1]);
    }
  }

  /** A slash-free suffix that is all of `path` or follows a slash is the
      base name. */
  lemma {:induction false} UniqueBasename(path: string, b: string)
    requires |b| <= |path| && b == path[|path| - |b|..] && '/' !in b
    requires |b| < |path| ==> path[|path| - |b| - 1] == '/'
    ensures Basename(path) == b
    decreases |b|
  {
    var n := |path|;
    if |b| > 0 {
      var m := |b|;
      assert path[n - 1] == b[m - 1];
      var shorter := path[..n - 1];
      var b' := b[..m - 1];
      assert b == b' + [b[m - 1]];
      assert shorter[n - m..] == b';
      assert m - 1 < n - 1 ==> shorter[n - m - 1] == path[n - m - 1];
      UniqueBasename(shorter, b');
    }
  }

  /** A name without a slash is its own base name. */
  lemma BasenameOfPlainName(name: string)
    requires '/' !in name
    ensures Basename(name) == name
  {
    UniqueBasename(name, name);
  }

  /** The directory part is ignored: `folder/doc1.pdf` has base name
      `doc1.pdf`. */
  lemma BasenameDropsDirectory(dir: string, name: string)
    requires '/' !in name
    ensures Basename(dir + "/" + name) == name
  {
    var path := dir + "/" + name;
    assert path[|path| - |name|..] == name;
    UniqueBasename(path, name);
  }

  /** The dedup gate: the base name is among the already recorded file
      names. */
  function AlreadyProcessed(filename: string, done: seq<string>): (r: bool)
    ensures r <==> SplitOnSlash(filename)[|SplitOnSlash(filename)| - 1] in done
  {
    BasenameIsLastPiece(filename);
    Basename(filename) in done
  }

  /** Where the file is moved after its row is written. */
  const ArchiveFolder: string := "test-docai-processed"

  function ArchivePath(filename: string): (r: string)
    ensures Basename(r) == Basename(filename)
    ensures |r| > |ArchiveFolder| && r[..|ArchiveFolder| + 1] == ArchiveFolder + "/"
    ensures '/' !in r[|ArchiveFolder| + 1..]
  {
    var b := Basename(filename);
    BasenameDropsDirectory(ArchiveFolder, b);
    assert (ArchiveFolder + "/" + b)[|ArchiveFolder| + 1..] == b;
    ArchiveFolder + "/" + b
  }

  /** `SUPPORTED_EXTENSIONS`, in the order they are tried. */
  const SupportedExtensions: seq<string> := [".pdf", ".jpg", ".jpeg", ".png"]

  /** `s[-k:]` for `k > 0`: the last `k` characters, or all of `s` when it is
      shorter. Every supported extension is non-empty, so `k == 0`, where
      Python would give all of `s`, never arises. */
  function Tail(s: string, k: nat): (r: string)
    ensures |r| == if k <= |s| then k else |s|
    ensures r == s[|s| - |r|..]
  {
    if k <= |s| then s[|s| - k..] else s
  }

  /** `file_name[-len(extension):] in extension`: a substring test, so a
      name shorter than the extension passes when it is a piece of it. */
  predicate ExtensionTest(name: string, ext: string) {
    Contains(ext, Tail(name, |ext|))
  }

  /** The MIME type chosen for a hit on `ext`. */
  function MimeOf(ext: string): (r: string)
    ensures r in {"application/pdf", "image/jpeg", "image/png"}
    ensures ext in SupportedExtensions ==>
              && (r == "application/pdf" <==> ext == ".pdf")
              && (r == "image/png" <==> ext == ".png")
              && (r == "image/jpeg" <==> ext == ".jpg" || ext == ".jpeg")
  {
    if ext == ".pdf" then "application/pdf"
    else if ext == ".png" then "image/png"
    else "image/jpeg"
  }

  /** The first extension of `exts` whose test passes decides. */
  function FirstHit(name: string, exts: seq<string>): (r: Option<string>)
    ensures r.Some? ==> r.value in {"application/pdf", "image/jpeg", "image/png"}
    ensures |exts| == 0 ==> r.None?
  {
    if |exts| == 0 then None
    else if ExtensionTest(name, exts[0]) then Some(MimeOf(exts[0]))
    else FirstHit(name, exts[1..])
  }

  /** No MIME type exactly when every test fails. */
  lemma {:induction false} FirstHitNoneIff(name: string, exts: seq<string>)
    ensures FirstHit(name, exts).None? <==> forall k :: 0 <= k < |exts| ==> !ExtensionTest(name, exts[k])
  {
    if |exts| > 0 {
      var rest := exts[1..];
      FirstHitNoneIff(name, rest);
      assert forall k :: 1 <= k < |exts| ==> exts[k] == rest[k - 1];
      if ExtensionTest(name, exts[0]) {
        FirstHitTakes(name, exts);
      } else {
        FirstHitSkips(name, exts);
      }
    }
  }

  /** The MIME type branch of `open_file_in_memory`; `None` when no
      extension passes (the function then falls off its end). */
  function MimeType(name: string): (r: Option<string>)
    ensures r.Some? ==> r.value in {"application/pdf", "image/jpeg", "image/png"}
  {
    FirstHit(name, SupportedExtensions)
  }

  /** `open_file_in_memory` returns nothing exactly when the name passes
      none of the four tests. */
  lemma MimeTypeNoneIff(name: string)
    ensures MimeType(name).None? <==>
              forall k :: 0 <= k < |SupportedExtensions| ==> !ExtensionTest(name, SupportedExtensions[k])
  {
    FirstHitNoneIff(name, SupportedExtensions);
  }

  /** The evident intent: the first supported extension the name ends
      with. */
  function MimeByEnding(name: string, exts: seq<string>): Option<string> {
    if |exts| == 0 then None
    else if EndsWith(name, exts[0]) then Some(MimeOf(exts[0]))
    else MimeByEnding(name, exts[1..])
  }

  /** For a piece no longer than the whole, containment is equality. */
  lemma ContainsSameLength(s: string, t: string)
    requires |t| == |s|
    ensures Contains(s, t) <==> t == s
  {
    ContainsIffOccurs(s, t);
    if t == s {
      assert OccursAt(s, t, 0);
    }
  }

  /** For names of five characters or more the substring test is the
      suffix test, so the mapping is the intended one. */
  lemma {:induction false} LongNameTestIsSuffixTest(name: string, exts: seq<string>)
    requires |name| >= 5
    requires forall k :: 0 <= k < |exts| ==> |exts[k]| <= 5
    ensures FirstHit(name, exts) == MimeByEnding(name, exts)
  {
    if |exts| > 0 {
      var ext := exts[0];
      ContainsSameLength(ext, Tail(name, |ext|));
      LongNameTestIsSuffixTest(name, exts[1..]);
    }
  }

  /** Every supported extension has between one and five characters. */
  lemma ExtensionsAreShort()
    ensures forall k :: 0 <= k < |SupportedExtensions| ==> 0 < |SupportedExtensions[k]| <= 5
  {
  }

  /** For a name of five characters or more, `open_file_in_memory` picks the
      MIME type of the first supported extension the name ends with. */
  lemma LongNameMime(name: string)
    requires |name| >= 5
    ensures MimeType(name) == MimeByEnding(name, SupportedExtensions)
  {
    ExtensionsAreShort();
    LongNameTestIsSuffixTest(name, SupportedExtensions);
  }

  /** For a name of at least `|ext|` characters, the test on `ext` is the
      suffix test. */
  lemma TestIsSuffixTest(name: string, ext: string)
    requires |ext| <= |name|
    ensures ExtensionTest(name, ext) <==> EndsWith(name, ext)
  {
    ContainsSameLength(ext, Tail(name, |ext|));
  }

  /** A passing test on the first extension decides. */
  lemma FirstHitTakes(name: string, exts: seq<string>)
    requires |exts| > 0 && ExtensionTest(name, exts[0])
    ensures FirstHit(name, exts) == Some(MimeOf(exts[0]))
  {
  }

  /** A failed test passes the decision to the remaining extensions. */
  lemma FirstHitSkips(name: string, exts: seq<string>)
    requires |exts| > 0 && !ExtensionTest(name, exts[0])
    ensures FirstHit(name, exts) == FirstHit(name, exts[1..])
  {
  }

  /** The first passing test decides. */
  lemma {:induction false} FirstHitAfterMisses(name: string, exts: seq<string>, j: nat)
    requires j < |exts| && ExtensionTest(name, exts[j])
    requires forall k {:trigger ExtensionTest(name, exts[k])} :: 0 <= k < j ==> !ExtensionTest(name, exts[k])
    ensures FirstHit(name, exts) == Some(MimeOf(exts[j]))
    decreases j
  {
    if j == 0 {
      FirstHitTakes(name, exts);
    } else {
      FirstHitSkips(name, exts);
      var rest := exts[1..];
      assert rest[j - 1] == exts[j];
      forall k | 0 <= k < j - 1 ensures !ExtensionTest(name, rest[k]) {
        assert rest[k] == exts[k + 1];
      }
      FirstHitAfterMisses(name, rest, j - 1);
    }
  }

  /** A name ending in `.pdf` is a PDF (the first test). */
  lemma PdfMapped(name: string)
    requires EndsWith(name, ".pdf")
    ensures MimeType(name) == Some("application/pdf")
  {
    TestIsSuffixTest(name, ".pdf");
    FirstHitTakes(name, SupportedExtensions);
  }

  /** A name ending in `.jpg` is a JPEG. */
  lemma JpgMapped(name: string)
    requires EndsWith(name, ".jpg")
    ensures MimeType(name) == Some("image/jpeg")
  {
    TestIsSuffixTest(name, ".pdf");
    TestIsSuffixTest(name, ".jpg");
    assert !EndsWith(name, ".pdf") by {
      assert name[|name| - 4..][1] != ".pdf"[1];
    }
    var e0 := SupportedExtensions;
    FirstHitSkips(name, e0);
    var e1 := e0[1..];
    assert e1 == [".jpg", ".jpeg", ".png"];
    FirstHitTakes(name, e1);
  }

  /** A name ending in `.jpeg` is a JPEG. */
  lemma JpegMapped(name: string)
    requires EndsWith(name, ".jpeg")
    ensures MimeType(name) == Some("image/jpeg")
  {
    assert name[|name| - 4..] == name[|name| - 5..][1..];
    TestIsSuffixTest(name, ".pdf");
    TestIsSuffixTest(name, ".jpg");
    TestIsSuffixTest(name, ".jpeg");
    var e0 := SupportedExtensions;
    FirstHitSkips(name, e0);
    var e1 := e0[1..];
    assert e1 == [".jpg", ".jpeg", ".png"];
    FirstHitSkips(name, e1);
    var e2 := e1[1..];
    assert e2 == [".jpeg", ".png"];
    FirstHitTakes(name, e2);
  }

  /** A name ending in `.png` is a PNG: the three earlier tests fail. */
  lemma PngMapped(name: string)
    requires EndsWith(name, ".png")
    ensures MimeType(name) == Some("image/png")
  {
    TestIsSuffixTest(name, ".pdf");
    TestIsSuffixTest(name, ".jpg");
    TestIsSuffixTest(name, ".png");
    PngFailsJpegTest(name);
    var e0 := SupportedExtensions;
    FirstHitSkips(name, e0);
    var e1 := e0[1..];
    assert e1 == [".jpg", ".jpeg", ".png"];
    FirstHitSkips(name, e1);
    var e2 := e1[1..];
    assert e2 == [".jpeg", ".png"];
    FirstHitSkips(name, e2);
    assert e2[1..] == [".png"];
  }

  /** `.png` is not a piece of `.jpeg`, and a longer name ending in `.png`
      does not end in `.jpeg`. */
  lemma PngFailsJpegTest(name: string)
    requires EndsWith(name, ".png")
    ensures !ExtensionTest(name, ".jpeg")
  {
    if |name| == 4 {
      assert name == ".png";
      ContainsIffOccurs(".jpeg", name);
      assert ".jpeg"[0..4] != ".png" by { assert ".jpeg"[1] != ".png"[1]; }
      assert ".jpeg"[1..5] != ".png" by { assert ".jpeg"[1..5][0] != ".png"[0]; }
    } else {
      assert name[|name| - 4..] == name[|name| - 5..][1..];
      TestIsSuffixTest(name, ".jpeg");
    }
  }

  /** Matching is case-sensitive and suffix-based for names of five
      characters or more: such a name ending in none of the four extensions
      (`scan.PDF`, say) gets no MIME type. */
  lemma OtherEndingsRejected(name: string)
    requires |name| >= 5
    requires forall k :: 0 <= k < |SupportedExtensions| ==> !EndsWith(name, SupportedExtensions[k])
    ensures MimeType(name) == None
  {
    var e0 := SupportedExtensions;
    assert !EndsWith(name, ".pdf") && !EndsWith(name, ".jpg") && !EndsWith(name, ".jpeg") && !EndsWith(name, ".png") by {
      assert e0[0] == ".pdf" && e0[1] == ".jpg" && e0[2] == ".jpeg" && e0[3] == ".png";
    }
    TestIsSuffixTest(name, ".pdf");
    TestIsSuffixTest(name, ".jpg");
    TestIsSuffixTest(name, ".jpeg");
    TestIsSuffixTest(name, ".png");
    FirstHitSkips(name, e0);
    var e1 := e0[1..];
    assert e1 == [".jpg", ".jpeg", ".png"];
    FirstHitSkips(name, e1);
    var e2 := e1[1..];
    assert e2 == [".jpeg", ".png"];
    FirstHitSkips(name, e2);
    var e3 := e2[1..];
    assert e3 == [".png"];
    FirstHitSkips(name, e3);
    assert e3[1..] == [];
  }

  /** Short names pass the substring test: `""` and `"pdf"` count as PDF. */
  lemma ShortNamesPassAsPdf()
    ensures MimeType("") == Some("application/pdf")
    ensures MimeType("pdf") == Some("application/pdf")
  {
    ContainsWitness(".pdf", "", 0);
    ContainsWitness(".pdf", "pdf", 1);
  }
}

=== FILE: job.dfy ===
/** `process_item` with its external services reduced to values: the list
    of already recorded file names, the document the OCR service returns,
    the date conversion and today's date are parameters, and the outcome
    says what the function would do with them. */
module Job {
  import opened Results
  import opened Anchors
  import opened Ranking
  import opened FieldFilter
  import opened Classifier
  import opened Intake
  import opened Keywords

  /** One row of the result table: `ID`, `Date`, `Filename`, `LoadedDate`. */
  datatype Record = Record(id: int, date: string, filename: string, loadedDate: string)

  /** The exceptions `process_item` lets escape. */
  datatype JobError =
    | NoMimeType                        // `open_file_in_memory` returned None
    | UnrankableField(rank: RankError)  // `sort_key` raised IndexError
    | UnreadableValue(value: ClassifyError)  // `int` or the date parse raised

  datatype Outcome =
    | AlreadyDone                                  // `return 0` before any work
    | Archived(record: Record, destination: string) // row written, file moved, `return 1`
    | Raised(error: JobError)

  /** The value `process_item` returns; `None` when it raises. */
  function ReturnCode(o: Outcome): (r: Option<int>)
    ensures r.None? <==> o.Raised?
    ensures r == Some(0) <==> o.AlreadyDone?
    ensures r == Some(1) <==> o.Archived?
  {
    match o
    case AlreadyDone => Some(0)
    case Archived(_, _) => Some(1)
    case Raised(_) => None
  }

  /** `process_item(filename)`: skip a file whose base name is recorded;
      otherwise pick the MIME type, rank and filter the fields of `doc`,
      classify them, and write the row for the base name before moving the
      file into the archive folder. */
  function ProcessItem(filename: string, done: seq<string>, doc: Document,
                       parseDate: DateParser, today: string): (r: Outcome)
    ensures r.AlreadyDone? <==> AlreadyProcessed(filename, done)
    ensures r == Raised(NoMimeType) <==> !AlreadyProcessed(filename, done) && MimeType(filename).None?
    ensures !AlreadyProcessed(filename, done) && MimeType(filename).Some? && ImportantFields(doc).Failure? ==>
              r == Raised(UnrankableField(ImportantFields(doc).error))
    ensures !AlreadyProcessed(filename, done) && MimeType(filename).Some? && ImportantFields(doc).Success?
            && Classify(ImportantFields(doc).value, parseDate).Failure? ==>
              r == Raised(UnreadableValue(Classify(ImportantFields(doc).value, parseDate).error))
    ensures r.Archived? <==>
              && !AlreadyProcessed(filename, done)
              && MimeType(filename).Some?
              && ImportantFields(doc).Success?
              && Classify(ImportantFields(doc).value, parseDate).Success?
    ensures r.Archived? ==>
              && r.record.filename == Basename(filename)
              && r.record.filename !in done
              && Basename(r.destination) == r.record.filename
              && r.destination == ArchiveFolder + "/" + r.record.filename
              && r.record.loadedDate == today
    ensures r.Archived? ==>
              Classify(ImportantFields(doc).value, parseDate) == Success(Extracted(r.record.id, r.record.date))
  {
    var base := Basename(filename);
    if base in done then AlreadyDone
    else if MimeType(filename).None? then Raised(NoMimeType)
    else
      match ImportantFields(doc)
      case Failure(e) => Raised(UnrankableField(e))
      case Success(items) =>
        match Classify(items, parseDate)
        case Failure(e) => Raised(UnreadableValue(e))
        case Success(x) => Archived(Record(x.id, x.date, base, today), ArchivePath(filename))
  }

  /** While a file's base name is among the recorded names, the same file,
      its archived copy, or any file with the same base name in another
      folder is skipped. */
  lemma RecordedFileIsSkipped(filename: string, other: string, done: seq<string>,
                              doc: Document, parseDate: DateParser, today: string)
    requires Basename(other) == Basename(filename)
    requires Basename(filename) in done
    ensures ProcessItem(other, done, doc, parseDate, today) == AlreadyDone
    ensures ProcessItem(ArchivePath(filename), done, doc, parseDate, today) == AlreadyDone
  {
  }

  /** The recorded names after one call: the load job writes with
      `WRITE_TRUNCATE`, so an archived file's row replaces the whole table. */
  function RecordedAfter(o: Outcome, done: seq<string>): (r: seq<string>)
    ensures o.Archived? ==> |r| == 1 && r[0] == o.record.filename
    ensures !o.Archived? ==> r == done
  {
    if o.Archived? then [o.record.filename] else done
  }

  /** Right after a file is archived, the same file is skipped. */
  lemma ArchivedFileIsSkippedNext(filename: string, done: seq<string>, doc: Document,
                                  parseDate: DateParser, today: string,
                                  doc': Document, parseDate': DateParser, today': string)
    requires ProcessItem(filename, done, doc, parseDate, today).Archived?
    ensures ProcessItem(filename, RecordedAfter(ProcessItem(filename, done, doc, parseDate, today), done),
                        doc', parseDate', today') == AlreadyDone
  {
    var o := ProcessItem(filename, done, doc, parseDate, today);
    assert o.record.filename == Basename(filename);
    assert RecordedAfter(o, done) == [Basename(filename)];
  }

  /** Once another file is archived, a file with a different base name is
      no longer among the recorded names and is processed again. */
  lemma TruncationForgetsEarlierFiles(filename: string, other: string, done: seq<string>,
                                      doc: Document, parseDate: DateParser, today: string,
                                      doc': Document, parseDate': DateParser, today': string)
    requires ProcessItem(other, done, doc, parseDate, today).Archived?
    requires Basename(other) != Basename(filename)
    ensures ProcessItem(filename, RecordedAfter(ProcessItem(other, done, doc, parseDate, today), done),
                        doc', parseDate', today') != AlreadyDone
  {
    var o := ProcessItem(other, done, doc, parseDate, today);
    assert o.record.filename == Basename(other);
    ForgottenAfter(filename, o, done, doc', parseDate', today');
  }

  /** After an archived outcome for another base name, `filename` is not
      skipped. */
  lemma ForgottenAfter(filename: string, o: Outcome, done: seq<string>, doc: Document,
                       parseDate: DateParser, today: string)
    requires o.Archived? && o.record.filename != Basename(filename)
    ensures ProcessItem(filename, RecordedAfter(o, done), doc, parseDate, today) != AlreadyDone
  {
    assert RecordedAfter(o, done) == [o.record.filename];
    UnrecordedFileIsProcessed(filename, RecordedAfter(o, done), doc, parseDate, today);
  }

  /** A file whose base name is not recorded is not skipped. */
  lemma UnrecordedFileIsProcessed(filename: string, done: seq<string>, doc: Document,
                                  parseDate: DateParser, today: string)
    requires Basename(filename) !in done
    ensures ProcessItem(filename, done, doc, parseDate, today) != AlreadyDone
  {
    assert !AlreadyProcessed(filename, done);
  }

  /** A document with no pages has no fields, so the filter yields only
      the sentinel. */
  lemma EmptyDocumentFields(text: string)
    ensures ImportantFields(Document(text, [])) == Success([Sentinel])
  {
    assert Flatten(Document(text, []).pages) == [];
  }

  /** A document with no form fields at all yields the sentinel row, so the
      recorded row carries identifier 0 and an empty date. */
  lemma EmptyDocumentGivesDefaults(filename: string, done: seq<string>, text: string,
                                   parseDate: DateParser, today: string)
    requires !AlreadyProcessed(filename, done) && MimeType(filename).Some?
    ensures ProcessItem(filename, done, Document(text, []), parseDate, today)
            == Archived(Record(0, "", Basename(filename), today), ArchivePath(filename))
  {
    EmptyDocumentFields(text);
    SentinelGivesDefaults(parseDate);
  }

  /** The worked example: one page holding an `Invoice #` label over
      characters 10 to 19 with its value over 20 to 24, and a `Date` label
      over 40 to 44 with its value over 45 to 55. */
  function InvoiceDocument(text: string): Document {
    Document(text, [Page([
      FormField(TextAnchor([Segment(10, 19)], ""), TextAnchor([Segment(20, 24)], "")),
      FormField(TextAnchor([Segment(40, 44)], ""), TextAnchor([Segment(45, 55)], ""))])])
  }

  /** The example text: the four spans read `Invoice #`, `4821`, `Date`
      and `03/14/2023`. */
  predicate InvoiceText(text: string) {
    && |text| >= 55
    && text[10..19] == "Invoice #" && text[20..24] == "4821"
    && text[40..44] == "Date" && text[45..55] == "03/14/2023"
  }

  /** The example's fields are already in reading order. */
  lemma InvoiceDocumentRanked(text: string)
    ensures Rank(InvoiceDocument(text)) == Success(InvoiceDocument(text).pages[0].formFields)
  {
    var doc := InvoiceDocument(text);
    var fields := doc.pages[0].formFields;
    assert doc.pages[1..] == [];
    assert Flatten(doc.pages) == fields;
    assert SortKey(fields[0]) == 10 && SortKey(fields[1]) == 40;
    assert forall f :: f in fields ==> !KeyRaises(f);
    assert Sorted(fields);
    SortedInputKept(doc);
  }

  /** The example's fields resolve to the two labelled pairs. */
  lemma InvoiceDocumentResolved(text: string)
    requires InvoiceText(text)
    ensures ResolveAll(InvoiceDocument(text).pages[0].formFields, text)
            == [Pair("Invoice #", "4821"), Pair("Date", "03/14/2023")]
  {
    SingleSegmentText(text, 10, 19, "");
    SingleSegmentText(text, 20, 24, "");
    SingleSegmentText(text, 40, 44, "");
    SingleSegmentText(text, 45, 55, "");
  }

  /** Both rows of the example pass the keyword filter. */
  lemma ExampleRowsKept(items: seq<Item>)
    requires items == [Pair("Invoice #", "4821"), Pair("Date", "03/14/2023")]
    ensures forall i :: 0 <= i < |items| ==> Kept(items[i])
  {
    InvoiceHashKept(items[0].name);
    DateKept(items[1].name);
    PairKept(items);
  }

  lemma PairKept(items: seq<Item>)
    requires |items| == 2 && Kept(items[0]) && Kept(items[1])
    ensures forall i :: 0 <= i < |items| ==> Kept(items[i])
  {
    forall i | 0 <= i < |items|
      ensures Kept(items[i])
    {
      assert i == 0 || i == 1;
    }
  }

  /** So the filter keeps both resolved pairs of the example. */
  lemma InvoiceFieldsKept(text: string)
    requires InvoiceText(text)
    ensures TabularData(InvoiceDocument(text).pages[0].formFields, text)
            == [Pair("Invoice #", "4821"), Pair("Date", "03/14/2023")]
  {
    var fields := InvoiceDocument(text).pages[0].formFields;
    InvoiceDocumentResolved(text);
    ExampleRowsKept(ResolveAll(fields, text));
    AllMatchingKept(fields, text);
  }

  /** So the example document yields exactly those two rows. */
  lemma InvoiceDocumentFields(text: string)
    requires InvoiceText(text)
    ensures ImportantFields(InvoiceDocument(text))
            == Success([Pair("Invoice #", "4821"), Pair("Date", "03/14/2023")])
  {
    InvoiceDocumentRanked(text);
    InvoiceFieldsKept(text);
  }

  /** A new file whose document reads `Invoice #` / `4821` and `Date` /
      `03/14/2023` is recorded with identifier 4821, the converted date, its
      base name and today's date, and moved to the archive folder. */
  lemma InvoiceScenario(filename: string, done: seq<string>, text: string,
                        parseDate: DateParser, today: string, d: string)
    requires !AlreadyProcessed(filename, done) && MimeType(filename).Some?
    requires InvoiceText(text)
    requires parseDate("03/14/2023") == Some(d)
    ensures ProcessItem(filename, done, InvoiceDocument(text), parseDate, today)
            == Archived(Record(4821, d, Basename(filename), today), ArchivePath(filename))
  {
    var items := [Pair("Invoice #", "4821"), Pair("Date", "03/14/2023")];
    InvoiceDocumentFields(text);
    InvoiceAndDateRows(parseDate, items, d);
    ReadFieldsAreArchived(filename, done, InvoiceDocument(text), parseDate, today, items, Extracted(4821, d));
  }

  /** A new file with a supported extension whose fields rank and classify
      is recorded with what they read. */
  lemma ReadFieldsAreArchived(filename: string, done: seq<string>, doc: Document,
                              parseDate: DateParser, today: string,
                              items: seq<Item>, x: Extracted)
    requires !AlreadyProcessed(filename, done) && MimeType(filename).Some?
    requires ImportantFields(doc) == Success(items)
    requires Classify(items, parseDate) == Success(x)
    ensures ProcessItem(filename, done, doc, parseDate, today)
            == Archived(Record(x.id, x.date, Basename(filename), today), ArchivePath(filename))
  {
  }
}

=== FILE: keywords.dfy ===
/** The keyword pattern of scripts/job.py: the alternation of `\bkw\b` over
    `KEYWORDS`, searched with `findall` in a lower-cased label. */
module Keywords {
  import opened Results
  import opened Strings

  /** `KEYWORDS`, in the order the alternation tries them. */
  const Vocabulary: seq<string> := ["number", "id", "date", "#", "invoice"]

  /** `\w` over ASCII: letters, digits and underscore. */
  predicate IsWordChar(c: char) {
    ('a' <= c <= 'z') || ('A' <= c <= 'Z') || ('0' <= c <= '9') || c == '_'
  }

  /** `\b` at index `i`: exactly one of the characters around `i` is a word
      character (outside the string counts as non-word). */
  predicate AtBoundary(s: string, i: int)
    requires 0 <= i <= |s|
  {
    (i > 0 && IsWordChar(s[i - 1])) != (i < |s| && IsWordChar(s[i]))
  }

  /** `\bw\b` matches at index `i`. */
  predicate WordAt(s: string, w: string, i: int) {
    OccursAt(s, w, i) && AtBoundary(s, i) && AtBoundary(s, i + |w|)
  }

  /** Some keyword matches as a whole word somewhere in `s`. */
  ghost predicate HasKeywordWord(s: string) {
    exists p, k :: 0 <= k < |Vocabulary| && WordAt(s, Vocabulary[k], p)
  }

  /** The first alternative from `alts` that matches at index `i`, as the
      regex engine tries them left to right. */
  function FirstAlternative(s: string, i: int, alts: seq<string>): (r: Option<string>)
    ensures r.Some? ==> r.value in alts && WordAt(s, r.value, i)
    ensures r.None? ==> forall k :: 0 <= k < |alts| ==> !WordAt(s, alts[k], i)
  {
    if |alts| == 0 then None
    else if WordAt(s, alts[0], i) then Some(alts[0])
    else FirstAlternative(s, i, alts[1..])
  }

  /** `findall` from index `i` for the alternation of `alts`: try every
      position left to right, and after a match resume at its end. */
  function FindAllOf(s: string, i: nat, alts: seq<string>): (r: seq<string>)
    requires forall k :: 0 <= k < |alts| ==> |alts[k]| > 0
    ensures forall j :: 0 <= j < |r| ==> r[j] in alts
    ensures |r| > 0 <==> exists p, k :: i <= p && 0 <= k < |alts| && WordAt(s, alts[k], p)
    decreases |s| + 1 - i
  {
    if i > |s| then
      assert forall p, k :: i <= p && 0 <= k < |alts| ==> !WordAt(s, alts[k], p);
      []
    else match FirstAlternative(s, i, alts)
      case Some(w) =>
        [w] + FindAllOf(s, i + |w|, alts)
      case None =>
        FindAllOf(s, i + 1, alts)
  }

  /** `findall` with the keyword pattern. Every item is a keyword, and the
      list is non-empty exactly when some keyword matches as a whole word at
      or after `i`. */
  function FindAll(s: string, i: nat): (r: seq<string>)
    ensures forall j :: 0 <= j < |r| ==> r[j] in Vocabulary
    ensures |r| > 0 <==> exists p, k :: i <= p && 0 <= k < |Vocabulary| && WordAt(s, Vocabulary[k], p)
  {
    FindAllOf(s, i, Vocabulary)
  }

  /** The test the filter applies to a label: `findall` on the lower-cased
      label returns at least one match, which happens exactly when the
      lower-cased label contains a keyword delimited by word boundaries. */
  function MatchesKeyword(name: string): (r: bool)
    ensures r <==> HasKeywordWord(Lower(name))
  {
    |FindAll(Lower(name), 0)| > 0
  }

  /** In a run of word characters the only boundaries are its two ends, so
      a keyword matches only if it is the whole run. */
  lemma WordInWordRun(s: string, w: string, p: int)
    requires |w| > 0 && forall i :: 0 <= i < |s| ==> IsWordChar(s[i])
    requires WordAt(s, w, p)
    ensures p == 0 && |w| == |s|
  {
  }

  /** A run of word characters whose length is that of no keyword holds
      no keyword as a whole word. */
  lemma NoWordInWordRun(s: string)
    requires forall i :: 0 <= i < |s| ==> IsWordChar(s[i])
    requires forall k :: 0 <= k < |Vocabulary| ==> |Vocabulary[k]| != |s|
    ensures forall p, k :: 0 <= k < |Vocabulary| ==> !WordAt(s, Vocabulary[k], p)
  {
    forall p, k | 0 <= k < |Vocabulary| ensures !WordAt(s, Vocabulary[k], p) {
      if WordAt(s, Vocabulary[k], p) {
        WordInWordRun(s, Vocabulary[k], p);
      }
    }
  }

  /** Without a whole-word keyword at or after `i`, `findall` returns
      nothing. */
  lemma NoWordNoMatch(s: string, i: nat)
    requires forall p, k :: i <= p && 0 <= k < |Vocabulary| ==> !WordAt(s, Vocabulary[k], p)
    ensures FindAll(s, i) == []
  {
  }

  /** A match at `i` is reported, and the scan resumes after it. */
  lemma FindAllTakes(s: string, i: nat, w: string)
    requires i <= |s| && FirstAlternative(s, i, Vocabulary) == Some(w)
    ensures FindAll(s, i) == [w] + FindAll(s, i + |w|)
  {
    FindAllOfTakes(s, i, Vocabulary, w);
  }

  /** The same two steps for any alternation. */
  lemma FindAllOfTakes(s: string, i: nat, alts: seq<string>, w: string)
    requires forall k :: 0 <= k < |alts| ==> |alts[k]| > 0
    requires i <= |s| && FirstAlternative(s, i, alts) == Some(w)
    ensures FindAllOf(s, i, alts) == [w] + FindAllOf(s, i + |w|, alts)
  {
  }

  /** With no match at `i`, the scan moves on by one character. */
  lemma FindAllSkips(s: string, i: nat)
    requires i <= |s| && FirstAlternative(s, i, Vocabulary) == None
    ensures FindAll(s, i) == FindAll(s, i + 1)
  {
    FindAllOfSkips(s, i, Vocabulary);
  }

  lemma FindAllOfSkips(s: string, i: nat, alts: seq<string>)
    requires forall k :: 0 <= k < |alts| ==> |alts[k]| > 0
    requires i <= |s| && FirstAlternative(s, i, alts) == None
    ensures FindAllOf(s, i, alts) == FindAllOf(s, i + 1, alts)
  {
  }

  /** Whole words only: `"Numbering"` is not a match for `number`. */
  lemma NumberingIsNotKept()
    ensures !MatchesKeyword("Numbering")
  {
    var s := Lower("Numbering");
    assert s == "numbering";
    NoWordInWordRun(s);
    NoWordNoMatch(s, 0);
  }

  /** A match of `w` at `p` starts with `w`'s first character. */
  lemma WordAtStartsWith(s: string, w: string, p: int)
    requires |w| > 0 && WordAt(s, w, p)
    ensures p < |s| && s[p] == w[0]
  {
    assert s[p] == s[p..p + |w|][0];
  }

  /** The alternative at position `k` is chosen when it matches and none
      before it does. */
  lemma {:induction false} FirstAlternativeIs(s: string, i: int, alts: seq<string>, k: nat)
    requires k < |alts| && WordAt(s, alts[k], i)
    requires forall j :: 0 <= j < k ==> !WordAt(s, alts[j], i)
    ensures FirstAlternative(s, i, alts) == Some(alts[k])
    decreases k
  {
    if k > 0 {
      FirstAlternativeIs(s, i, alts[1..], k - 1);
    }
  }

  /** No alternative is chosen when none matches. */
  lemma {:induction false} FirstAlternativeNone(s: string, i: int, alts: seq<string>)
    requires forall j :: 0 <= j < |alts| ==> !WordAt(s, alts[j], i)
    ensures FirstAlternative(s, i, alts) == None
  {
    if |alts| > 0 {
      FirstAlternativeNone(s, i, alts[1..]);
    }
  }

  /** No keyword starts with a character other than `n`, `i`, `d` or `#`,
      so none matches at such a character or past the end. */
  lemma NoWordAtOtherInitial(s: string, p: int)
    requires 0 <= p < |s| ==> s[p] !in "nid#"
    ensures forall k :: 0 <= k < |Vocabulary| ==> !WordAt(s, Vocabulary[k], p)
  {
    forall k | 0 <= k < |Vocabulary| ensures !WordAt(s, Vocabulary[k], p) {
      if WordAt(s, Vocabulary[k], p) {
        WordAtStartsWith(s, Vocabulary[k], p);
      }
    }
  }

  /** Where no keyword initial appears at or after `i`, no keyword matches
      there. */
  lemma NoInitialNoWord(s: string, i: nat)
    requires forall j :: i <= j < |s| ==> s[j] !in "nid#"
    ensures forall p, k :: i <= p && 0 <= k < |Vocabulary| ==> !WordAt(s, Vocabulary[k], p)
  {
    forall p, k | i <= p && 0 <= k < |Vocabulary| ensures !WordAt(s, Vocabulary[k], p) {
      NoWordAtOtherInitial(s, p);
    }
  }

  /** In `"invoice #"` the scan finds `invoice` first (`id` fails on its
      second letter). */
  lemma InvoiceFoundFirst(s: string)
    requires s == "invoice #"
    ensures FindAll(s, 0) == ["invoice"] + FindAll(s, 7)
  {
    assert WordAt(s, Vocabulary[4], 0);
    assert !WordAt(s, Vocabulary[1], 0) by {
      assert s[1] != Vocabulary[1][1];
    }
    forall j | 0 <= j < 4 && j != 1 ensures !WordAt(s, Vocabulary[j], 0) {
      if WordAt(s, Vocabulary[j], 0) {
        WordAtStartsWith(s, Vocabulary[j], 0);
      }
    }
    FirstAlternativeIs(s, 0, Vocabulary, 4);
    FindAllTakes(s, 0, "invoice");
  }

  /** After `invoice`, neither the space nor the `#` (a non-word character
      after a non-word character) starts a match. */
  lemma NothingAfterInvoice(s: string)
    requires s == "invoice #"
    ensures FindAll(s, 7) == []
  {
    NoWordAtOtherInitial(s, 7);
    FirstAlternativeNone(s, 7, Vocabulary);
    FindAllSkips(s, 7);
    assert !AtBoundary(s, 8);
    FirstAlternativeNone(s, 8, Vocabulary);
    FindAllSkips(s, 8);
    NoInitialNoWord(s, 9);
    NoWordNoMatch(s, 9);
  }

  /** `\b#\b` needs a word character on each side, so in `"invoice #"`
      only `invoice` matches. */
  lemma HashAfterSpaceIsNotAMatch(s: string)
    requires s == "invoice #"
    ensures FindAll(s, 0) == ["invoice"]
  {
    InvoiceFoundFirst(s);
    NothingAfterInvoice(s);
  }

  /** `#` is not a word character, so `\b#\b` matches only where a word
      character sits on each side of the `#`. */
  lemma HashNeedsWordCharsAround(s: string, p: int)
    requires WordAt(s, "#", p)
    ensures 0 < p && p + 1 < |s| && IsWordChar(s[p - 1]) && IsWordChar(s[p + 1])
  {
    assert s[p] == "#"[0];
  }

  /** In `"a#b"` nothing starts at `a`. */
  lemma NothingAtA(t: string)
    requires t == "a#b"
    ensures FindAll(t, 0) == FindAll(t, 1)
  {
    NoWordAtOtherInitial(t, 0);
    FirstAlternativeNone(t, 0, Vocabulary);
    FindAllSkips(t, 0);
  }

  /** In `"a#b"` the `#` sits between two word characters and matches. */
  lemma HashFoundAtOne(t: string)
    requires t == "a#b"
    ensures FindAll(t, 1) == ["#"] + FindAll(t, 2)
  {
    assert WordAt(t, Vocabulary[3], 1);
    forall j | 0 <= j < 3 ensures !WordAt(t, Vocabulary[j], 1) {
      if WordAt(t, Vocabulary[j], 1) {
        WordAtStartsWith(t, Vocabulary[j], 1);
      }
    }
    FirstAlternativeIs(t, 1, Vocabulary, 3);
    FindAllTakes(t, 1, "#");
  }

  /** Past the `#` of `"a#b"` no keyword initial remains. */
  lemma NothingAfterHash(t: string)
    requires t == "a#b"
    ensures FindAll(t, 2) == []
  {
    NoInitialNoWord(t, 2);
    NoWordNoMatch(t, 2);
  }

  /** Between two word characters `#` does match. */
  lemma HashBetweenWordCharsMatches(t: string)
    requires t == "a#b"
    ensures FindAll(t, 0) == ["#"]
  {
    NothingAtA(t);
    HashFoundAtOne(t);
    NothingAfterHash(t);
  }

  /** `"Invoice #"` is kept, through `invoice`. */
  lemma InvoiceHashKept(name: string)
    requires name == "Invoice #"
    ensures MatchesKeyword(name)
  {
    assert Lower(name) == "invoice #";
    HashAfterSpaceIsNotAMatch(Lower(name));
  }

  /** `"Date"` is kept, through `date`. */
  lemma DateKept(name: string)
    requires name == "Date"
    ensures MatchesKeyword(name)
  {
    var s := Lower(name);
    assert s == "date";
    assert WordAt(s, Vocabulary[2], 0);
  }

  /** `"ID"` is kept, through `id`. */
  lemma IdKept(name: string)
    requires name == "ID"
    ensures MatchesKeyword(name)
  {
    var s := Lower(name);
    assert s == "id";
    assert WordAt(s, Vocabulary[1], 0);
  }
}

=== FILE: pyint.dfy ===
/** Python's `int(text)` for base 10, restricted to ASCII: surrounding
    whitespace is ignored, one optional sign, then decimal digits where a
    single underscore may separate two digits. Anything else raises
    ValueError, modelled as `None`. */
module PyInt {
  import opened Results

  /** ASCII whitespace: tab, line feed, vertical tab, form feed, carriage
      return, space. */
  predicate IsSpace(c: char) {
    9 <= c as int <= 13 || c == ' '
  }

  predicate IsDigit(c: char) {
    '0' <= c <= '9'
  }

  function DigitValue(c: char): nat
    requires IsDigit(c)
  {
    c as int - '0' as int
  }

  /** `s` with leading whitespace removed. */
  function TrimStart(s: string): (r: string)
    ensures |r| <= |s| && r == s[|s| - |r|..]
    ensures forall i :: 0 <= i < |s| - |r| ==> IsSpace(s[i])
    ensures |r| > 0 ==> !IsSpace(r[0])
  {
    if |s| > 0 && IsSpace(s[0]) then TrimStart(s[1..]) else s
  }

  /** `s` with trailing whitespace removed. */
  function TrimEnd(s: string): (r: string)
    ensures |r| <= |s| && r == s[..|r|]
    ensures forall i :: |r| <= i < |s| ==> IsSpace(s[i])
    ensures |r| > 0 ==> !IsSpace(r[|r| - 1])
  {
    if |s| > 0 && IsSpace(s[|s| - 1]) then TrimEnd(s[..|s| - 1]) else s
  }

  function Trim(s: string): string {
    TrimEnd(TrimStart(s))
  }

  /** Digits with single underscores between digits: `1_000` but not `_1`,
      `1_` or `1__0`. */
  predicate IsDigitRun(b: string) {
    && |b| > 0
    && IsDigit(b[0])
    && IsDigit(b[|b| - 1])
    && (forall i :: 0 <= i < |b| ==> IsDigit(b[i]) || b[i] == '_')
    && (forall i :: 0 <= i < |b| - 1 ==> b[i] == '_' ==> b[i + 1] != '_')
  }

  /** The number the digits of `b` spell, underscores skipped. */
  function DigitsValue(b: string): nat
    requires forall i :: 0 <= i < |b| ==> IsDigit(b[i]) || b[i] == '_'
  {
    if |b| == 0 then 0
    else if b[|b| - 1] == '_' then DigitsValue(b[..|b| - 1])
    else 10 * DigitsValue(b[..|b| - 1]) + DigitValue(b[|b| - 1])
  }

  /** `int(s)`; `None` where Python raises ValueError. */
  function ParseInt(s: string): Option<int> {
    ParseTrimmed(Trim(s))
  }

  /** An optional sign followed by a digit run. */
  function ParseTrimmed(t: string): Option<int> {
    if |t| > 0 && (t[0] == '-' || t[0] == '+') then
      if IsDigitRun(t[1..]) then
        var magnitude: int := DigitsValue(t[1..]);
        Some(if t[0] == '-' then -magnitude else magnitude)
      else None
    else if IsDigitRun(t) then Some(DigitsValue(t))
    else None
  }

  /** The decimal digits of `n` (Python's `str(n)` for `n >= 0`). */
  function ShowNat(n: nat): (r: string)
    ensures |r| > 0 && forall i :: 0 <= i < |r| ==> IsDigit(r[i])
  {
    var d := ["0123456789"[n % 10]];
    if n < 10 then d else ShowNat(n / 10) + d
  }

  /** `str(n)`. */
  function Show(n: int): string {
    if n < 0 then "-" + ShowNat(-n) else ShowNat(n)
  }

  lemma {:induction false} ShowNatValue(n: nat)
    ensures DigitsValue(ShowNat(n)) == n
  {
    var s := ShowNat(n);
    if n >= 10 {
      ShowNatValue(n / 10);
      assert s[..|s| - 1] == ShowNat(n / 10);
    }
  }

  /** `int(str(n)) == n`: the parser reads back every integer Python
      prints. */
  lemma ParseShowRoundTrip(n: int)
    ensures ParseInt(Show(n)) == Some(n)
  {
    var m: nat := if n < 0 then -n else n;
    var digits := ShowNat(m);
    ShowNatValue(m);
    assert IsDigitRun(digits);
    var s := Show(n);
    assert s[0] == '-' || IsDigit(s[0]);
    assert IsDigit(s[|s| - 1]);
    NoSpaceAtEnds(s);
    if n < 0 {
      assert s[1..] == digits;
    }
  }

  lemma NoSpaceAtEnds(s: string)
    requires |s| > 0 && !IsSpace(s[0]) && !IsSpace(s[|s| - 1])
    ensures Trim(s) == s
  {
  }

  /** A leading space does not change what `int` returns. */
  lemma LeadingSpaceIgnored(s: string)
    ensures ParseInt(" " + s) == ParseInt(s)
  {
    assert (" " + s)[1..] == s;
  }

  /** A trailing newline does not change what `int` returns. */
  lemma TrailingNewlineIgnored(s: string)
    ensures ParseInt(s + "\n") == ParseInt(s)
  {
    var u := TrimStart(s);
    TrimStartOfNewline(s);
    if u != "" {
      assert (u + "\n")[..|u|] == u;
      assert TrimEnd(u + "\n") == TrimEnd(u);
    }
  }

  lemma {:induction false} TrimStartOfNewline(s: string)
    ensures TrimStart(s + "\n") == if TrimStart(s) == "" then "" else TrimStart(s) + "\n"
  {
    if |s| > 0 && IsSpace(s[0]) {
      assert (s + "\n")[1..] == s[1..] + "\n";
      TrimStartOfNewline(s[1..]);
    } else if |s| == 0 {
      assert ("" + "\n")[1..] == "";
    }
  }

  /** Whatever `int` accepts consists of whitespace, signs, digits and
      underscores only. */
  lemma AcceptedCharacters(s: string)
    requires ParseInt(s).Some?
    ensures forall i :: 0 <= i < |s| ==> IsSpace(s[i]) || IsDigit(s[i]) || s[i] in "+-_"
  {
    var u := TrimStart(s);
    var t := TrimEnd(u);
    forall i | 0 <= i < |s| && !IsSpace(s[i]) ensures IsDigit(s[i]) || s[i] in "+-_" {
      var j := i - (|s| - |u|);
      assert 0 <= j < |t| && s[i] == t[j];
      if |t| > 0 && (t[0] == '-' || t[0] == '+') {
        if j > 0 { assert t[1..][j - 1] == t[j]; }
      }
    }
  }

  /** A date is not an identifier: `int("03/14/2023")` raises. */
  lemma DateIsNotAnInt()
    ensures ParseInt("03/14/2023") == None
  {
    var d := "03/14/2023";
    assert !IsSpace(d[2]) && !IsDigit(d[2]) && d[2] !in "+-_";
    if ParseInt(d).Some? {
      AcceptedCharacters(d);
    }
  }

  /** The example identifier: `int("4821") == 4821`. */
  lemma ReadsAs4821(s: string)
    requires s == "4821"
    ensures ParseInt(s) == Some(4821)
  {
    NoSpaceAtEnds(s);
    assert IsDigitRun(s);
    var s3, s2, s1 := s[..3], s[..2], s[..1];
    assert s3[..2] == s2 && s2[..1] == s1 && s1[..0] == [];
    assert DigitsValue(s1) == 4;
    assert DigitsValue(s2) == 48;
    assert DigitsValue(s3) == 482;
    assert DigitsValue(s) == 4821;
  }
}

=== FILE: ranking.dfy ===
/** `form_fields_sorted_by_ocr_order`: every page's form fields, flattened and
    stably sorted by the start of the label's first span. */
module Ranking {
  import opened Results
  import opened Anchors

  /** A text-anchor message is truthy when one of its fields is set: it has a
      span or non-empty content. */
  predicate IsSet(a: TextAnchor) {
    |a.segments| > 0 || a.content != ""
  }

  /** The sort key: start of the label's first span, 0 for an unset anchor.
      (A set anchor without spans is handled by `KeyRaises`.) */
  function SortKey(f: FormField): int {
    if |f.nameAnchor.segments| > 0 then f.nameAnchor.segments[0].start else 0
  }

  /** Computing the key indexes an empty span list: Python raises IndexError. */
  predicate KeyRaises(f: FormField) {
    IsSet(f.nameAnchor) && |f.nameAnchor.segments| == 0
  }

  /** All pages' form fields, page by page, each page in its own order. */
  function Flatten(pages: seq<Page>): (r: seq<FormField>)
    ensures forall p, j :: 0 <= p < |pages| && 0 <= j < |pages[p].formFields| ==> pages[p].formFields[j] in r
    ensures forall f :: f in r ==> exists p :: 0 <= p < |pages| && f in pages[p].formFields
  {
    if |pages| == 0 then []
    else pages[0].formFields + Flatten(pages[1..])
  }

  /** Appending a page appends its fields at the end. */
  lemma {:induction false} FlattenAppend(pages: seq<Page>, p: Page)
    ensures Flatten(pages + [p]) == Flatten(pages) + p.formFields
  {
    if |pages| == 0 {
      assert Flatten([p]) == p.formFields + Flatten([]);
    } else {
      assert (pages + [p])[1..] == pages[1..] + [p];
      FlattenAppend(pages[1..], p);
    }
  }

  /** Keys never decrease along `s`. */
  predicate Sorted(s: seq<FormField>) {
    forall i, j :: 0 <= i < j < |s| ==> SortKey(s[i]) <= SortKey(s[j])
  }

  /** The fields of `s` whose key is `k`, in their order in `s`. */
  function WithKey(s: seq<FormField>, k: int): seq<FormField> {
    if |s| == 0 then []
    else (if SortKey(s[0]) == k then [s[0]] else []) + WithKey(s[1..], k)
  }

  /** Insert `x` into sorted `t` before the first field whose key is not
      smaller, so `x` precedes the fields of equal key. */
  function Insert(x: FormField, t: seq<FormField>): (r: seq<FormField>)
    requires Sorted(t)
    ensures Sorted(r)
    ensures multiset(r) == multiset(t) + multiset{x}
  {
    if |t| == 0 then [x]
    else if SortKey(x) <= SortKey(t[0]) then [x] + t
    else
      var rest := Insert(x, t[1..]);
      InsertAfterHead(x, t, rest);
      assert t == [t[0]] + t[1..];
      [t[0]] + rest
  }

  /** The step of `Insert` that keeps the head of `t` in front. */
  lemma InsertAfterHead(x: FormField, t: seq<FormField>, rest: seq<FormField>)
    requires Sorted(t) && |t| > 0 && SortKey(t[0]) < SortKey(x)
    requires Sorted(rest) && multiset(rest) == multiset(t[1..]) + multiset{x}
    ensures Sorted([t[0]] + rest)
  {
    forall i | 0 <= i < |rest| ensures SortKey(t[0]) <= SortKey(rest[i]) {
      assert rest[i] in multiset(rest);
      if rest[i] != x {
        assert rest[i] in multiset(t[1..]);
        var j :| 0 <= j < |t[1..]| && t[1..][j] == rest[i];
        assert t[j + 1] == rest[i];
      }
    }
  }

  /** Among the fields of key `k`, `Insert` puts `x` first and keeps the
      others in their order. */
  lemma {:induction false} InsertWithKey(x: FormField, t: seq<FormField>, k: int)
    requires Sorted(t)
    ensures WithKey(Insert(x, t), k) == (if SortKey(x) == k then [x] + WithKey(t, k) else WithKey(t, k))
    decreases |t|
  {
    var r := Insert(x, t);
    if |t| == 0 {
      assert r[1..] == [];
    } else if SortKey(x) <= SortKey(t[0]) {
      assert r[0] == x && r[1..] == t;
    } else {
      var rest := Insert(x, t[1..]);
      InsertWithKey(x, t[1..], k);
      assert r[0] == t[0] && r[1..] == rest;
    }
  }

  /** Stable sort by `SortKey` (Python's `sorted(..., key=sort_key)`). */
  function SortByKey(s: seq<FormField>): (r: seq<FormField>)
    ensures Sorted(r)
    ensures multiset(r) == multiset(s)
    ensures forall k :: WithKey(r, k) == WithKey(s, k)
  {
    if |s| == 0 then []
    else
      var sorted := SortByKey(s[1..]);
      assert s == [s[0]] + s[1..];
      assert forall k :: WithKey(Insert(s[0], sorted), k) == WithKey(s, k) by {
        forall k ensures WithKey(Insert(s[0], sorted), k) == WithKey(s, k) {
          InsertWithKey(s[0], sorted, k);
        }
      }
      Insert(s[0], sorted)
  }

  datatype RankError = KeyIndexError(field: FormField)

  /** `form_fields_sorted_by_ocr_order`. Python computes every key before
      sorting, so one field whose key raises makes the whole call raise. */
  function Rank(doc: Document): (r: Result<seq<FormField>, RankError>)
    ensures r.Success? <==> forall f :: f in Flatten(doc.pages) ==> !KeyRaises(f)
    ensures r.Failure? ==> r.error.field in Flatten(doc.pages) && KeyRaises(r.error.field)
    ensures r.Success? ==> Sorted(r.value) && multiset(r.value) == multiset(Flatten(doc.pages))
    ensures r.Success? ==> forall k :: WithKey(r.value, k) == WithKey(Flatten(doc.pages), k)
  {
    var fields := Flatten(doc.pages);
    match FirstRaising(fields)
    case Some(i) => Failure(KeyIndexError(fields[i]))
    case None => Success(SortByKey(fields))
  }

  /** Index of the first field whose key raises, in the order keys are
      computed. */
  function FirstRaising(s: seq<FormField>): (r: Option<nat>)
    ensures r.Some? ==> r.value < |s| && KeyRaises(s[r.value])
    ensures r.Some? ==> forall j :: 0 <= j < r.value ==> !KeyRaises(s[j])
    ensures r.None? ==> forall j :: 0 <= j < |s| ==> !KeyRaises(s[j])
  {
    if |s| == 0 then None
    else if KeyRaises(s[0]) then Some(0)
    else match FirstRaising(s[1..])
      case Some(i) => Some(i + 1)
      case None => None
  }

  /** A non-empty key class of a sorted sequence starts no earlier than the
      sequence's first key. */
  lemma {:induction false} WithKeyAfterFirst(s: seq<FormField>, k: int)
    requires Sorted(s)
    requires WithKey(s, k) != []
    ensures |s| > 0 && SortKey(s[0]) <= k
  {
    if SortKey(s[0]) != k {
      WithKeyAfterFirst(s[1..], k);
    }
  }

  /** Two sorted sequences that agree on every key class are equal. */
  lemma {:induction false} SortedSameClassesEqual(r: seq<FormField>, q: seq<FormField>)
    requires Sorted(r) && Sorted(q)
    requires forall k :: WithKey(r, k) == WithKey(q, k)
    ensures r == q
    decreases |r|
  {
    if |r| == 0 || |q| == 0 {
      var s := if |r| > 0 then r else q;
      if |s| > 0 {
        assert WithKey(r, SortKey(s[0])) != WithKey(q, SortKey(s[0]));
      }
    } else {
      var k := SortKey(r[0]);
      assert WithKey(r, k)[0] == r[0];
      WithKeyAfterFirst(q, k);
      var k' := SortKey(q[0]);
      assert WithKey(q, k')[0] == q[0];
      WithKeyAfterFirst(r, k');
      assert k == k';
      assert r[0] == q[0];
      forall j ensures WithKey(r[1..], j) == WithKey(q[1..], j) {
        var head := if k == j then [r[0]] else [];
        assert WithKey(r, j) == head + WithKey(r[1..], j);
        assert WithKey(q, j) == head + WithKey(q[1..], j);
        assert WithKey(r[1..], j) == WithKey(r, j)[|head|..];
        assert WithKey(q[1..], j) == WithKey(q, j)[|head|..];
      }
      SortedSameClassesEqual(r[1..], q[1..]);
      assert r == [r[0]] + r[1..];
      assert q == [q[0]] + q[1..];
    }
  }

  /** The ranking is the only arrangement of the fields that is sorted by key
      and keeps the original order within each key. */
  lemma RankIsTheStableOrder(doc: Document, r: seq<FormField>)
    requires Rank(doc).Success?
    requires Sorted(r)
    requires forall k :: WithKey(r, k) == WithKey(Flatten(doc.pages), k)
    ensures Rank(doc).value == r
  {
    SortedSameClassesEqual(Rank(doc).value, r);
  }

  /** Fields already in key order keep their order: the ranking of such a
      document is its flattened field list. */
  lemma SortedInputKept(doc: Document)
    requires forall f :: f in Flatten(doc.pages) ==> !KeyRaises(f)
    requires Sorted(Flatten(doc.pages))
    ensures Rank(doc) == Success(Flatten(doc.pages))
  {
    RankIsTheStableOrder(doc, Flatten(doc.pages));
  }
}

=== FILE: results.dfy ===
/** Optional values and success/failure results, used wherever the Python code
    returns `None` or raises. */
module Results {

  datatype Option<+T> = None | Some(value: T) {
    /** The wrapped value, or `default` when there is none. */
    function GetOr(default: T): T {
      match this
      case Some(v) => v
      case None => default
    }
  }

  /** `Failure` stands for an exception the Python code lets escape. */
  datatype Result<+T, +E> = Success(value: T) | Failure(error: E)
}

=== FILE: strings.dfy ===
/** Character and substring helpers with Python's meaning. */
module Strings {

  /** `c.lower()` for ASCII letters; every other character is kept. */
  function LowerChar(c: char): char {
    if 'A' <= c <= 'Z' then (c as int - 'A' as int + 'a' as int) as char else c
  }

  /** `s.lower()`, character by character. */
  function Lower(s: string): (r: string)
    ensures |r| == |s|
    ensures forall i :: 0 <= i < |r| ==> !('A' <= r[i] <= 'Z')
    ensures forall i :: 0 <= i < |s| && !('A' <= s[i] <= 'Z') ==> r[i] == s[i]
    ensures forall i :: 0 <= i < |s| && 'A' <= s[i] <= 'Z' ==>
      r[i] as int - s[i] as int == 'a' as int - 'A' as int
  {
    seq(|s|, i requires 0 <= i < |s| => LowerChar(s[i]))
  }

  /** Lower-casing twice changes nothing more. */
  lemma LowerIdempotent(s: string)
    ensures Lower(Lower(s)) == Lower(s)
  {
  }

  /** `t` occurs in `s` starting at index `i`. */
  predicate OccursAt(s: string, t: string, i: int) {
    0 <= i && i + |t| <= |s| && s[i..i + |t|] == t
  }

  /** Python's `t in s` for two strings: `t` is a contiguous piece of `s`.
      Computed by trying every start position from the left. */
  predicate Contains(s: string, t: string)
    decreases |s|
  {
    if |s| < |t| then false
    else s[..|t|] == t || Contains(s[1..], t)
  }

  /** `s.endswith(t)`. */
  predicate EndsWith(s: string, t: string) {
    |t| <= |s| && s[|s| - |t|..] == t
  }

  /** The left-to-right scan of `Contains` finds `t` exactly when `t`
      occurs at some index of `s`. */
  lemma {:induction false} ContainsIffOccurs(s: string, t: string)
    ensures Contains(s, t) <==> exists i :: OccursAt(s, t, i)
    decreases |s|
  {
    if |s| < |t| {
      forall i | OccursAt(s, t, i) ensures false { }
    } else if s[..|t|] == t {
      assert OccursAt(s, t, 0);
    } else {
      ContainsIffOccurs(s[1..], t);
      if Contains(s[1..], t) {
        var i :| OccursAt(s[1..], t, i);
        assert s[i + 1..i + 1 + |t|] == s[1..][i..i + |t|];
        assert OccursAt(s, t, i + 1);
      } else {
        forall i | OccursAt(s, t, i) ensures false {
          if i > 0 {
            assert s[1..][i - 1..i - 1 + |t|] == s[i..i + |t|];
            assert OccursAt(s[1..], t, i - 1);
          }
        }
      }
    }
  }

  /** A witness position shows containment. */
  lemma ContainsWitness(s: string, t: string, i: int)
    requires OccursAt(s, t, i)
    ensures Contains(s, t)
  {
    ContainsIffOccurs(s, t);
  }

  /** A non-empty `t` whose first character never appears in `s` is not
      contained in `s`. */
  lemma MissingFirstChar(s: string, t: string)
    requires |t| > 0 && t[0] !in s
    ensures !Contains(s, t)
  {
    ContainsIffOccurs(s, t);
    forall i | OccursAt(s, t, i) ensures false { }
  }
}
